=== FILE: README.md ===
# FinanceAssistant agents: a Dafny model

FinanceAssistant is a multi-agent financial-assistant pipeline written in
Python. This project models the parts of its agents that have logic of their
own and proves properties about them:

- **the retrieval store** (`retriever_agent.py`): `BaseRetriever` keeps three
  parallel lists (texts, embedding rows, metadata dicts) that `add_texts`
  extends in place. `FAISSRetriever` adds a dtype check, a FAISS flat index
  and a `retrieve` that turns the index's answer into records. Module
  `Retriever`, file `retriever.dfy`: two classes with `modifies` and `reads`
  frames.
- **the filing scraper** (`scraping_agent.py`): `scrape_filing` picks HTML,
  PDF or "unsupported" from the lower-cased URL suffix. It extracts a
  title/content record or a text blob, and every failure gives `None` for
  that URL only. `scrape_filings` maps over a batch. Module `Scraping`: pure
  functions.
- **the Alpha Vantage wrapper** (`api_agent.py`) comes in two parts.
  - Query building, and the shaping of a decoded answer into a table or an
    HTTP error.
  - `get_stock_prices`, which fills a dict in a loop. `get_historical_data`
    and `get_company_overview`, and what the three endpoints return.

  Module `Api`.
- **the risk-analysis control flow** (`analysis_agent.py`): the 30-day window
  filter and the latest-quote fetch. Also the `analyze_risk_exposure` loops:
  dropping symbols without history, reading latest prices and computing
  price changes. Every exception collapses the answer to `{}`. Module
  `Analysis`: specification functions and the methods whose loops are proved
  against them.
- **query dispatch** (`orchestrator.py`): `handle_query` makes a
  case-sensitive keyword test ("market data" before "filings", otherwise a
  fixed apology), then hands the response to text-to-speech. Module
  `Orchestrator`.

Supporting modules:
- `Strings` holds Python's `strip`, ASCII `lower`, `endswith`/`startswith`,
  the `in` test and `join`.
- `Json` holds decoded JSON objects. An object is a list of fields in order,
  read like a dict built by `json.loads`: a repeated key keeps its first
  position and takes its last value.
- `Wrappers` holds `Option` and `Result`.

Foreign code appears as function-valued parameters:
- the HTTP requests: `Api.Provider.respond`, `Scraping.Parsers.fetch`;
- the HTML and PDF parsers: `Scraping.Parsers`;
- the pandas conversions and statistics: `Api.Provider.toBars`,
  `Analysis.Sources`;
- FAISS search: the `hits` argument of `Retrieve`;
- the clock: `Analysis.Sources.now`;
- the downstream agents of the orchestrator: `Orchestrator.Downstream`.

Behaviour of the code that the model states outright:
- Every failure of `_fetch_data` becomes an HTTP 500, whatever its cause.
  Only the detail differs (`Api.FetchData`).
- The time-series branch of `_fetch_data` reads the series under the
  *second* key of the answer (`api_agent.py:69`), whatever that key is
  (`Api.SeriesFrame`, `Api.SeriesReadsSecondKey`). A response with fewer than
  two keys raises IndexError, which the generic handler turns into a 500.
  The `not in data` test that follows can never fail, and `Api.Shape` proves
  that no `MissingKey` error comes from a series request.
- `analysis_agent.py` uses its own `AlphaVantageAgent` (lines 9-60), whose
  `GLOBAL_QUOTE` branch never converts the price to a number. A string price
  makes the subtraction at line 121 raise TypeError, and the whole answer is
  then `{}` (`Analysis.StringPriceCollapses`).
- `handle_query` calls methods its agents do not define: `get_market_data`,
  `get_relevant_filings`, `analyze_market_data` and `analyze_filings`. It
  also calls `self.voice_agent.tts`, but `VoiceAgent` defines `speak_text`
  and no `tts` (`voice_agent.py:43`). So as written every call of
  `handle_query` raises AttributeError, the apology branch included
  (`Orchestrator.NothingAnswered`).
- After `FAISSRetriever.add_texts` fails on the index width, the base lists
  keep the new entries and the index does not. From then on, index positions
  added later no longer name the entries they were added with
  (`Retriever.FAISSRetriever.AddTexts`).

## Model

| member | source | states |
|---|---|---|
| Strings.Strip | scraping_agent.py:40-41 | the result is empty exactly when the input is all whitespace; otherwise it neither starts nor ends with whitespace and is the infix left after removing whitespace on both sides |
| Strings.StripIdempotent | scraping_agent.py:73 | stripping a stripped string changes nothing |
| Strings.Lower | scraping_agent.py:83 | same length, each character lower-cased, no upper-case ASCII letter left |
| Strings.LowerIdempotent | scraping_agent.py:83-88 | lower-casing twice is lower-casing once |
| Strings.ContainsAt | orchestrator.py:26-30 | `sub in s` holds exactly when `sub` occurs at some index of `s` |
| Strings.JoinAppend | scraping_agent.py:65 | joining one more part appends the separator and that part, so parts keep their order |
| Strings.StripAll | scraping_agent.py:65 | one stripped paragraph per paragraph, in order |
| Json.Keys | api_agent.py:69 | `list(data.keys())`: exactly the keys present, each once, in the order of their first occurrence (so the first key first), never more keys than fields |
| Json.Get | api_agent.py:64-65 | a value exactly when the key is present, and then the value of the key's last occurrence |
| Json.GetLastWins | api_agent.py:59 | a later field with the same key overrides every earlier one, as in a dict built by `json.loads` |
| Retriever.CheckAdd | retriever_agent.py:35-38 | no error exactly when counts of texts and embedding rows agree and any non-empty metadata list has the same length; a count mismatch is reported first |
| Retriever.MetadataRows | retriever_agent.py:41 | one metadata dict per new text: the given list when it is non-empty, otherwise an empty dict each |
| Retriever.Zip | retriever_agent.py:49-56 | one record per index holding that index's text, embedding and metadata |
| Retriever.ZipAppend | retriever_agent.py:39-41 | extending the three lists extends the zipped records by the zipped new ones |
| Retriever.Hits | retriever_agent.py:79-87 | at most one record per hit, each a stored entry |
| Retriever.Real | retriever_agent.py:81 | the non-padding hits, all of them and no -1 |
| Retriever.RealAppend | retriever_agent.py:80-81 | the filter keeps the hits in the order of the search answer |
| Retriever.HitsIgnorePadding | retriever_agent.py:80-86 | the -1 padding contributes no record: the result equals that of the real hits alone |
| Retriever.HitsAt | retriever_agent.py:80-86 | without padding, the j-th record is the entry at the j-th hit |
| Retriever.BaseRetriever.constructor | retriever_agent.py:25-31 | a new store has three empty lists |
| Retriever.BaseRetriever.AddTexts | retriever_agent.py:33-41 | on a count or metadata mismatch nothing changes; otherwise the three lists grow by the new texts, rows and metadata (empty dicts when none given), the lists stay equally long, and `get_all` grows by exactly the new records |
| Retriever.BaseRetriever.GetAll | retriever_agent.py:47-56 | one record per stored entry, in insertion order |
| Retriever.FaissAddCheck | retriever_agent.py:67-71 | a non-float32 matrix is rejected first, then a failed base check is reported as such, and only then a wrong width, as a dimension mismatch; no error exactly when the dtype, the base checks and the index width all pass |
| Retriever.FAISSRetriever.constructor | retriever_agent.py:60-65 | empty store, empty index of the given dimension |
| Retriever.FAISSRetriever.Create | retriever_agent.py:60-65 | a retriever exactly when FAISS is installed, empty and of the given dimension |
| Retriever.FAISSRetriever.AddTexts | retriever_agent.py:67-71 | a wrong dtype or failed base check changes nothing; a wrong width leaves the grown lists but not the index; success grows both; every index position stays a stored entry; the number of stored entries the index lacks is unchanged by a success and grows by the new texts on a width mismatch |
| Retriever.FAISSRetriever.Retrieve | retriever_agent.py:73-87 | an empty index, a non-float32 query and, in the index search, a query of the wrong width and then a `top_k` that is not positive are errors, in that order; otherwise the records named by the search answer, in its order, skipping -1, at most `top_k` of them |
| Scraping.Classify | scraping_agent.py:83-95 | HTML exactly when the lower-cased URL ends in ".html" or ".htm", PDF exactly when it ends in ".pdf" |
| Scraping.SuffixesExclusive | scraping_agent.py:83-88 | no URL ends both in an HTML suffix and in ".pdf" |
| Scraping.ClassifyIgnoresCase | scraping_agent.py:83-88 | a URL and its lower-cased form take the same branch |
| Scraping.ExtractDataFromHtml | scraping_agent.py:62-69 | default title without a title tag; the error record when the tag holds no single string; otherwise the stripped title and the stripped paragraphs joined by newlines |
| Scraping.PageText | scraping_agent.py:39 | the joined page text is empty exactly when no page gives any text, and is at least as long as any page's text |
| Scraping.PageTextAppend | scraping_agent.py:39 | pages are joined in order: the text of a concatenation of pages is the concatenation of their texts |
| Scraping.ExtractTextFromPdf | scraping_agent.py:34-60 | an unreadable PDF gives nothing; non-blank page text gives that text stripped; blank text falls back to the partitioned elements joined by blank lines, or nothing; any text returned is stripped |
| Scraping.ExtractDataFromText | scraping_agent.py:71-76 | the text record of the input stripped: an infix of the input with only whitespace around it removed, empty exactly for blank input, starting and ending with non-whitespace, already stripped, and the input itself when that was stripped |
| Scraping.ScrapeFiling | scraping_agent.py:78-95 | a failed fetch or unsupported suffix gives nothing; an HTML record only for HTML URLs and a text record only for PDF URLs; each branch is its parse-then-extract chain |
| Scraping.ScrapeFilings | scraping_agent.py:97-98 | one result per URL, in order, each the result of scraping that URL alone |
| Scraping.ScrapeFilingsAppend | scraping_agent.py:97-98 | the results for a concatenated batch are the concatenated results: one URL's failure does not affect the others |
| Api.NewAgent | api_agent.py:26-35 | an agent exactly when the key is present and non-empty, holding that key; otherwise the ValueError message |
| Api.Payload | api_agent.py:55 | the three fixed keys plus the extra parameters, which override a fixed key they repeat |
| Api.QuoteColumnsSize | api_agent.py:85-96 | the quote renaming has ten entries |
| Api.QuoteColumnsInjective | api_agent.py:85-96 | no two quote columns get the same new name |
| Api.RenameFields | api_agent.py:84-96 | same fields in the same order, renamed keys, same values |
| Api.RenamedLookup | api_agent.py:84-96 | after renaming, a new column name reads the value of its original column |
| Api.QuoteFrame | api_agent.py:78-102 | a missing "Global Quote" is a missing key; a falsy quote an empty table; an object quote one row of its renamed fields, with their keys as columns, provided it then has `latest_trading_day`, else a missing key; any other quote a missing `latest_trading_day` |
| Api.OverviewFrame | api_agent.py:103-114 | an empty table exactly when "Symbol" is absent; otherwise one row of the answer's fields, with their keys as columns |
| Api.SeriesFrame | api_agent.py:68-76 | fewer than two keys is the IndexError; otherwise the bars read under the second key, or a shape failure; never a missing key |
| Api.Shape | api_agent.py:64-116 | "Error Message" wins over every branch; otherwise the quote, overview or series frame of the requested function; a quote without "Global Quote" is a missing key, a falsy quote an empty table, a non-empty quote one row carrying `latest_trading_day`; an overview is empty exactly without "Symbol"; a series request never reports a missing key; only series requests give series |
| Api.SeriesReadsSecondKey | api_agent.py:68-76 | an answer whose first two fields have different keys is read under the second key, whatever it is: the usual "Meta Data" plus series answer gives the series, any other second key is read instead |
| Api.RenamedQuoteRow | api_agent.py:84-96 | a quote with a price and a trading day, and without the new names, keeps both under the new names |
| Api.QuotePriceRenamed | api_agent.py:78-96 | a full quote answer gives one row whose "price" is the quote's "05. price" |
| Api.FetchData | api_agent.py:54-129 | a failed request and every shaping failure become HTTP 500; otherwise the shaped table |
| Api.QuoteOrEmpty | api_agent.py:143-148 | a symbol's quote, or an empty table when fetching it failed |
| Api.GetStockPrices | api_agent.py:131-149 | an entry for every requested symbol and no other, each its quote or an empty table |
| Api.IntervalFunction | api_agent.py:162-170 | a series function exactly for "1d", "1wk" and "1mo" |
| Api.IntervalsDistinct | api_agent.py:165-170 | different supported intervals ask for different series |
| Api.GetHistoricalData | api_agent.py:151-174 | a 400 exactly for an unsupported interval; otherwise the full-size fetch of that interval's series, which is a series when it succeeds |
| Api.HistoricalQuery | api_agent.py:165-171 | the query sent: the series name for the interval, the symbol, the key and `outputsize=full`, nothing else |
| Api.GetCompanyOverview | api_agent.py:176-190 | no answer and an "Error Message" are HTTP 500s (with that message); any other answer is the overview frame of it, empty exactly without "Symbol", otherwise one row carrying "Symbol" |
| Api.EndpointBody | api_agent.py:225-227 | `{}` exactly for an empty table, otherwise one record per row |
| Analysis.Window | analysis_agent.py:73-75 | exactly the bars dated within [now - days, now] |
| Analysis.WindowAppend | analysis_agent.py:75 | the filter keeps bars in their original order |
| Analysis.HistoricalData | analysis_agent.py:70-79 | the windowed series, or an empty table when the fetch failed |
| Analysis.LatestQuote | analysis_agent.py:81-87 | the quote, or an empty table when the fetch failed |
| Analysis.LatestPrice | analysis_agent.py:110-114 | `None` for an empty quote; otherwise the first row's price, raising exactly when there is none |
| Analysis.PriceChange | analysis_agent.py:119-123 | `None` exactly when the latest price is `None`; the difference for a number or boolean, and for a list holding exactly one of them; raises for a string, a dict and any other list |
| Analysis.Survivors | analysis_agent.py:92-96 | exactly the listed symbols that have history |
| Analysis.SurvivorsAppend | analysis_agent.py:92-96 | the survivors keep the input order: those of a concatenation are the concatenated survivors |
| Analysis.Drop | analysis_agent.py:96 | the list without the given symbols, every occurrence |
| Analysis.DropAppend | analysis_agent.py:96 | the list comprehension keeps the order: dropping from a concatenation is concatenating the dropped parts |
| Analysis.DropMore | analysis_agent.py:96 | removing one more symbol from a filtered list is filtering the original by the larger set |
| Analysis.DropStep | analysis_agent.py:92-96 | each iteration keeps the list filtered by exactly the symbols seen so far without history |
| Analysis.DropGivesSurvivors | analysis_agent.py:92-96 | filtering by the symbols without history gives the survivors, in order |
| Analysis.HistoryMap | analysis_agent.py:91-93 | the dict has an entry for exactly the visited symbols, each that symbol's history |
| Analysis.HistoryMapStep | analysis_agent.py:92-93 | visiting one more symbol adds its history to the dict |
| Analysis.CollectHistory | analysis_agent.py:91-96 | the dict is `HistoryMap` of the whole input (every input symbol gets its history, dropped or not), and the rebound list is the survivors in their original order |
| Analysis.LatestPrices | analysis_agent.py:108-114 | raises exactly when some kept symbol's price read raises; otherwise one entry per kept symbol: `None` when its quote fetch failed or is empty, else the first row's "price" |
| Analysis.PriceChanges | analysis_agent.py:116-123 | raises exactly when some subtraction raises; otherwise one change per kept symbol, `None` exactly where the latest price is `None`, the latest price minus the last close where it is a number |
| Analysis.RiskExposure | analysis_agent.py:89-145 | the no-data record exactly when no symbol survives; a report exactly when some symbol survives and nothing raises (statistics, price reads, subtractions, `idxmax` and the lookup of its answer), otherwise `{}`; a report carries the statistics of the survivors and names the largest-change survivor with its change |
| Analysis.ReadLatestPrices | analysis_agent.py:108-114 | the loop computes `LatestPrices` |
| Analysis.ComputePriceChanges | analysis_agent.py:118-123 | the loop computes `PriceChanges` |
| Analysis.NoDataExactly | analysis_agent.py:98-99 | the error record comes back exactly when no symbol has history |
| Analysis.StringPriceCollapses | analysis_agent.py:119-145 | a kept symbol whose latest price is a string makes the answer `{}` |
| Analysis.ReportNamesKeptSymbol | analysis_agent.py:124-125 | a report names a kept symbol, whose change is `None` exactly when it had no latest price |
| Analysis.AnalyzeRiskExposure | analysis_agent.py:89-145 | the method's answer is `RiskExposure`: the history loop, the no-data record, the price loops, and `{}` on any exception |
| Orchestrator.Route | orchestrator.py:26-35 | the market-data branch exactly when the query contains "market data"; the filings branch exactly when it does not but contains "filings"; otherwise unrecognised |
| Orchestrator.HandleQuery | orchestrator.py:25-38 | the chosen chain's response (the apology for an unrecognised query) is returned exactly when the chain and the text-to-speech call on it both return; the spoken text is the returned text |
| Orchestrator.NothingAnswered | orchestrator.py:25-38 | with the downstream and text-to-speech calls as written, every query raises |
| Orchestrator.OnlyApologyAnswers | orchestrator.py:25-38 | with both chains as written but a working text-to-speech call, a query is answered exactly when it is unrecognised and the apology can be spoken, and then with the apology |
| Orchestrator.UpperCaseUnrecognised | orchestrator.py:26-30 | matching is case-sensitive: a query without lower-case letters is never routed to a branch |
| Orchestrator.NoLowerNoOccurrence | orchestrator.py:26-30 | a keyword starting with a lower-case letter occurs nowhere in a text without one |

## Left out

- Network I/O (`requests.get` in all three fetchers) is left out. Responses
  and document bytes are inputs (`Api.Provider.respond`,
  `Scraping.Parsers.fetch`).
- pandas numerics are left out: `pct_change`, `corr`, the weighted sum,
  `std`, `idxmax`, and the allocation ratios and `shift`
  (analysis_agent.py:101-106, 124-132). They come from `Analysis.Sources`:
  `figures`, `lastClose`, `largestChange`.
- Type coercion and date parsing are left out (`astype(float)`,
  `to_numeric`, `to_datetime`). A series arrives as typed bars through
  `Api.Provider.toBars`, and quote and overview values are kept as decoded.
- FAISS internals are left out: building the flat L2 index, `add` and
  `search`. The index is its size `ntotal` and dimension, and the search
  answer is the `hits` argument.
- BeautifulSoup, PyPDF2 and `unstructured` are left out. They are
  `Scraping.Parsers`: a parsed page is its title tag and paragraph texts,
  and a PDF is its page texts or a failure.
- `_fetch_document` and `_parse_html` are left out. Their only behaviour
  (`None` on failure) is carried by the `Option` results of
  `Parsers.fetch` and `Parsers.parseHtml`.
- `BaseRetriever.retrieve` is left out. It only raises NotImplementedError.
- Api.FetchData: the final `else` of `_fetch_data` (`pd.DataFrame(data)` for
  other function names) is not modelled. No caller passes another name, and
  `Api.Function` lists only the five used.
- Api.GetStockPrices: the result is a map, so the insertion order of the
  Python dict is not stated.
- Api.Shape: columns created by a renamed quote key that collides with a key
  already present (duplicate column names) are not modelled.
- The FastAPI request and response-model validation is left out, and so is
  the HTTP server.
- Strings.Lower: only ASCII letters are lower-cased. That is exact for the
  ".html", ".htm" and ".pdf" suffix tests, but not Python's full Unicode
  `lower()`.
- Analysis.Window: the clock is one instant (`Sources.now`). The source calls
  `datetime.now()` once per symbol.
- Analysis.PriceChange: NaN is not modelled. A previous close missing from
  the joined table is a NaN in pandas, which the subtraction propagates.
  `previous_prices[symbol]` is never `None` for a kept symbol, because the
  joined table then has rows (analysis_agent.py:116).
  Prices and closes are exact `real` numbers, not float64, so the
  difference carries no rounding. A list price is modelled as the array
  arithmetic then storing into one cell treat it: one number (or boolean)
  is unwrapped, any other list raises.
- Analysis.AnalyzeRiskExposure: a symbol listed twice gives one map entry,
  where the pandas Series would hold two index entries.
- The analysis agent's own `AlphaVantageAgent` (analysis_agent.py:9-60) is
  left out. It is the source of `Sources.dailySeries` and
  `Sources.latestQuote`.
- The orchestrator's constructor and downstream agents (voice, language
  model, retrieval, analysis) are left out. What they return is
  `Orchestrator.Downstream`.
- The speech itself is left out. Whether the `tts` call returns is
  `Orchestrator.Downstream.speaks`, and the text handed to it is the
  `spoken` field of a reply.
- The polling loop and `__main__` blocks of the agents, `app.py`,
  `language_agent.py` and `voice_agent.py` are not part of this model.
- Logging is left out.

=== FILE: analysis.dfy ===
/** The control logic of `AnalysisAgent.analyze_risk_exposure` in
    analysis_agent.py: fetch every symbol's recent history, drop the symbols
    without any, read the latest prices and work out each symbol's price
    change; every exception turns the whole answer into `{}`. The statistics
    (returns, correlation, portfolio risk, the largest change, the allocation
    shares) are pandas arithmetic and come from the `Sources` value, as do the
    agent's two fetches and the clock. */
module Analysis {
  import opened Wrappers
  import opened Json
  import Api

  const SECONDS_PER_DAY: int := 86400
  /** `_get_historical_data(symbol, days=30)` */
  const DEFAULT_DAYS: int := 30
  const NO_DATA_MESSAGE: string := "No data available for any of the provided stocks."

  /** A computation that returns a value or raises. */
  datatype Step<+T> = Done(value: T) | Raises

  /** The pandas statistics of one run. */
  datatype Figures = Figures(
    correlation: map<string, map<string, real>>,
    portfolioRisk: real,
    allocationPercentage: real,
    previousDayAllocationPercentage: real)

  /** Everything the agent reads from outside:
      - `now`: `datetime.now()`, in seconds;
      - `dailySeries(s)`: the daily bars of `s`, or `None` when the fetch raised;
      - `latestQuote(s)`: the quote frame of `s`, or `None` when the fetch raised;
      - `figures(symbols)`: the statistics over the kept symbols, `None` when pandas raised;
      - `lastClose(symbols, s)`: `data.iloc[-1][s]`, the last close in the joined table;
      - `largestChange(changes)`: `price_change.abs().idxmax()`, `None` when it raised. */
  datatype Sources = Sources(
    now: int,
    dailySeries: string -> Option<seq<Api.Bar>>,
    latestQuote: string -> Option<Api.Frame>,
    figures: seq<string> -> Option<Figures>,
    lastClose: (seq<string>, string) -> real,
    largestChange: map<string, Option<real>> -> Option<string>)

  /** The answer of `analyze_risk_exposure`: the `{"error": ...}` record, the
      `{}` of the exception handler, or the analysis itself. */
  datatype Analysis =
    | NoData(error: string)
    | Collapsed
    | Report(figures: Figures, largestChangeStock: string, largestChangeValue: Option<real>)

  predicate InWindow(b: Api.Bar, now: int, days: int) {
    now - days * SECONDS_PER_DAY <= b.date <= now
  }

  /** `df[(df.index >= start_date) & (df.index <= end_date)]` with
      `end_date = now` and `start_date = now - timedelta(days)`. */
  function Window(bars: seq<Api.Bar>, now: int, days: int): (r: seq<Api.Bar>)
    ensures forall b :: b in r <==> b in bars && InWindow(b, now, days)
    ensures |r| <= |bars|
  {
    if bars == [] then []
    else
      var last := bars[|bars| - 1];
      assert bars == bars[..|bars| - 1] + [last];
      Window(bars[..|bars| - 1], now, days) + (if InWindow(last, now, days) then [last] else [])
  }

  /** The window keeps rows in their original order: filtering a concatenation
      is concatenating the filtered parts. */
  lemma {:induction false} WindowAppend(a: seq<Api.Bar>, b: seq<Api.Bar>, now: int, days: int)
    ensures Window(a + b, now, days) == Window(a, now, days) + Window(b, now, days)
    decreases |b|
  {
    if b != [] {
      var front := b[..|b| - 1];
      assert (a + b)[..|a + b| - 1] == a + front;
      assert (a + b)[|a + b| - 1] == b[|b| - 1];
      WindowAppend(a, front, now, days);
    } else {
      assert a + b == a;
    }
  }

  /** `_get_historical_data`: the windowed series, or an empty table when
      the fetch raised. */
  function HistoricalData(fetched: Option<seq<Api.Bar>>, now: int, days: int): (r: seq<Api.Bar>)
    ensures fetched.None? ==> r == []
    ensures fetched.Some? ==> r == Window(fetched.value, now, days)
  {
    match fetched
    case None => []
    case Some(bars) => Window(bars, now, days)
  }

  /** The 30-day history the analysis uses for `symbol`. */
  function History(src: Sources, symbol: string): seq<Api.Bar> {
    HistoricalData(src.dailySeries(symbol), src.now, DEFAULT_DAYS)
  }

  /** `_get_latest_quote`: the quote frame, or an empty table when the fetch
      raised. */
  function LatestQuote(fetched: Option<Api.Frame>): (f: Api.Frame)
    ensures fetched.None? ==> f == Api.EMPTY && Api.Empty(f)
    ensures fetched.Some? ==> f == fetched.value
  {
    if fetched.None? then Api.EMPTY else fetched.value
  }

  /** `latest_quote_df['price'].iloc[0]` if the quote is not empty, else
      `None` (here `Null`); a quote without a price raises KeyError. */
  function LatestPrice(quote: Api.Frame): (r: Step<Value>)
    ensures Api.Empty(quote) ==> r == Done(Null)
    ensures r.Raises? <==> !Api.Empty(quote) && !(quote.Records? && Has(quote.rows[0], "price"))
    ensures r.Done? && !Api.Empty(quote) ==> Some(r.value) == Get(quote.rows[0], "price")
  {
    if Api.Empty(quote) then Done(Null)
    else
      match quote
      case Records(_, rows) =>
        (match Get(rows[0], "price")
         case Some(price) => Done(price)
         case None => Raises)
      case Series(_) => Raises
  }

  /** The number a scalar price stands for in numpy arithmetic: a number
      itself, a boolean as 1 or 0. */
  function Scalar(v: Value): (x: Option<real>)
    ensures x.Some? <==> v.Num? || v.Bool?
    ensures v.Num? ==> x == Some(v.x)
  {
    match v
    case Num(x) => Some(x)
    case Bool(b) => Some(if b then 1.0 else 0.0)
    case _ => None
  }

  /** `price_change[symbol] = latest - previous` when the latest price is not
      `None`, with `previous` a float64. A scalar gives the difference. A list
      is subtracted elementwise into an array, and storing that array in one
      cell unwraps it when it holds a single number and raises otherwise; a
      list holding anything but numbers, a string or a dict raises TypeError
      already in the subtraction. */
  function PriceChange(latest: Value, previous: real): (r: Step<Option<real>>)
    ensures r == Done(None) <==> latest == Null
    ensures latest.Num? ==> r == Done(Some(latest.x - previous))
    ensures Scalar(latest).Some? ==> r == Done(Some(Scalar(latest).value - previous))
    ensures latest.Arr? && |latest.items| == 1 && Scalar(latest.items[0]).Some? ==>
              r == Done(Some(Scalar(latest.items[0]).value - previous))
    ensures latest.Arr? && !(|latest.items| == 1 && Scalar(latest.items[0]).Some?) ==> r == Raises
    ensures latest.Str? || latest.Obj? ==> r == Raises
  {
    match latest
    case Null => Done(None)
    case Num(x) => Done(Some(x - previous))
    case Bool(b) => Done(Some((if b then 1.0 else 0.0) - previous))
    case Arr(items) =>
      if |items| == 1 && Scalar(items[0]).Some? then Done(Some(Scalar(items[0]).value - previous))
      else Raises
    case _ => Raises
  }

  /** The symbols that keep some history, in their original order, with
      every occurrence of a dropped symbol removed. */
  function Survivors(symbols: seq<string>, src: Sources): (r: seq<string>)
    ensures forall s :: s in r <==> s in symbols && History(src, s) != []
    ensures |r| <= |symbols|
  {
    if symbols == [] then []
    else
      var last := symbols[|symbols| - 1];
      assert symbols == symbols[..|symbols| - 1] + [last];
      Survivors(symbols[..|symbols| - 1], src) + (if History(src, last) != [] then [last] else [])
  }

  /** The survivors keep their original order: filtering a concatenation is
      concatenating the filtered parts. */
  lemma {:induction false} SurvivorsAppend(a: seq<string>, b: seq<string>, src: Sources)
    ensures Survivors(a + b, src) == Survivors(a, src) + Survivors(b, src)
    decreases |b|
  {
    if b != [] {
      var front := b[..|b| - 1];
      assert (a + b)[..|a + b| - 1] == a + front;
      assert (a + b)[|a + b| - 1] == b[|b| - 1];
      SurvivorsAppend(a, front, src);
    } else {
      assert a + b == a;
    }
  }

  /** `[s for s in xs if s not in dropped]` */
  function Drop(xs: seq<string>, dropped: set<string>): (r: seq<string>)
    ensures forall s :: s in r <==> s in xs && s !in dropped
    ensures |r| <= |xs|
  {
    if xs == [] then []
    else
      var last := xs[|xs| - 1];
      assert xs == xs[..|xs| - 1] + [last];
      Drop(xs[..|xs| - 1], dropped) + (if last in dropped then [] else [last])
  }

  /** Dropping keeps the original order: filtering a concatenation is
      concatenating the filtered parts. */
  lemma {:induction false} DropAppend(a: seq<string>, b: seq<string>, dropped: set<string>)
    ensures Drop(a + b, dropped) == Drop(a, dropped) + Drop(b, dropped)
    decreases |b|
  {
    if b != [] {
      var front := b[..|b| - 1];
      assert (a + b)[..|a + b| - 1] == a + front;
      assert (a + b)[|a + b| - 1] == b[|b| - 1];
      DropAppend(a, front, dropped);
    } else {
      assert a + b == a;
    }
  }

  /** Removing one more symbol from an already filtered list is filtering the
      original list by the larger set. */
  lemma {:induction false} DropMore(xs: seq<string>, dropped: set<string>, x: string)
    ensures Drop(Drop(xs, dropped), {x}) == Drop(xs, dropped + {x})
  {
    if xs != [] {
      var front := xs[..|xs| - 1];
      var last := xs[|xs| - 1];
      DropMore(front, dropped, x);
      var d := Drop(front, dropped);
      if last !in dropped {
        assert Drop(xs, dropped) == d + [last];
        assert (d + [last])[..|d + [last]| - 1] == d;
      } else {
        assert Drop(xs, dropped) == d;
      }
    }
  }

  /** Filtering by exactly the symbols without history gives the survivors. */
  lemma {:induction false} DropGivesSurvivors(xs: seq<string>, dropped: set<string>, src: Sources)
    requires forall s :: s in xs ==> (s in dropped <==> History(src, s) == [])
    ensures Drop(xs, dropped) == Survivors(xs, src)
  {
    if xs != [] {
      var front := xs[..|xs| - 1];
      assert forall s :: s in front ==> s in xs;
      DropGivesSurvivors(front, dropped, src);
    }
  }

  /** The symbols among `xs` whose history is empty. */
  function Missing(xs: seq<string>, src: Sources): (r: set<string>)
    ensures forall s :: s in r <==> s in xs && History(src, s) == []
  {
    set s | s in xs && History(src, s) == []
  }

  /** One more symbol of the list: removing it when its history is empty
      keeps the list filtered by exactly the symbols seen so far without
      history. */
  lemma DropStep(xs: seq<string>, i: nat, src: Sources, survivors: seq<string>)
    requires i < |xs| && survivors == Drop(xs, Missing(xs[..i], src))
    ensures Drop(xs, Missing(xs[..i + 1], src))
            == if History(src, xs[i]) == [] then Drop(survivors, {xs[i]}) else survivors
  {
    assert xs[..i + 1] == xs[..i] + [xs[i]];
    if History(src, xs[i]) == [] {
      assert Missing(xs[..i + 1], src) == Missing(xs[..i], src) + {xs[i]};
      DropMore(xs, Missing(xs[..i], src), xs[i]);
    } else {
      assert Missing(xs[..i + 1], src) == Missing(xs[..i], src);
    }
  }

  /** The `historical_data` dict after visiting the symbols of `xs`. */
  function HistoryMap(xs: seq<string>, src: Sources): (m: map<string, seq<Api.Bar>>)
    ensures forall s :: s in m <==> s in xs
    ensures forall s :: s in m ==> m[s] == History(src, s)
  {
    map s | s in xs :: History(src, s)
  }

  /** Visiting one more symbol adds its history to the dict. */
  lemma HistoryMapStep(xs: seq<string>, i: nat, src: Sources)
    requires i < |xs|
    ensures HistoryMap(xs[..i + 1], src) == HistoryMap(xs[..i], src)[xs[i] := History(src, xs[i])]
  {
    assert xs[..i + 1] == xs[..i] + [xs[i]];
  }

  /** The first loop of `analyze_risk_exposure`. It walks the list it was
      given, records every symbol's history, and each time a symbol has none
      rebinds the list to a copy without that symbol. */
  method CollectHistory(stockList: seq<string>, src: Sources)
    returns (historicalData: map<string, seq<Api.Bar>>, survivors: seq<string>)
    ensures historicalData == HistoryMap(stockList, src)
    ensures survivors == Survivors(stockList, src)
  {
    historicalData := map[];
    survivors := stockList;
    DropNothing(stockList);
    assert Missing(stockList[..0], src) == {};
    assert HistoryMap(stockList[..0], src) == map[];
    for i := 0 to |stockList|
      invariant historicalData == HistoryMap(stockList[..i], src)
      invariant survivors == Drop(stockList, Missing(stockList[..i], src))
    {
      var symbol := stockList[i];
      DropStep(stockList, i, src, survivors);
      HistoryMapStep(stockList, i, src);
      var history := HistoricalData(src.dailySeries(symbol), src.now, DEFAULT_DAYS);
      historicalData := historicalData[symbol := history];
      if history == [] {
        survivors := Drop(survivors, {symbol});
      }
    }
    assert stockList[..|stockList|] == stockList;
    DropGivesSurvivors(stockList, Missing(stockList, src), src);
  }

  /** Filtering by the empty set keeps everything. */
  lemma {:induction false} DropNothing(xs: seq<string>)
    ensures Drop(xs, {}) == xs
  {
    if xs != [] {
      DropNothing(xs[..|xs| - 1]);
      assert xs == xs[..|xs| - 1] + [xs[|xs| - 1]];
    }
  }

  /** The latest price of every kept symbol, unless reading one raises. */
  function LatestPrices(survivors: seq<string>, src: Sources): (r: Step<map<string, Value>>)
    ensures r.Raises? <==> exists s :: s in survivors && LatestPrice(LatestQuote(src.latestQuote(s))).Raises?
    ensures r.Done? ==> forall s :: s in r.value <==> s in survivors
    ensures r.Done? ==> forall s :: s in survivors ==> LatestPrice(LatestQuote(src.latestQuote(s))) == Done(r.value[s])
    ensures r.Done? ==> forall s :: s in survivors && src.latestQuote(s).None? ==> r.value[s] == Null
    ensures r.Done? ==> forall s :: s in survivors && src.latestQuote(s).Some? && !Api.Empty(src.latestQuote(s).value) ==>
              src.latestQuote(s).value.Records? && Some(r.value[s]) == Get(src.latestQuote(s).value.rows[0], "price")
  {
    if exists s :: s in survivors && LatestPrice(LatestQuote(src.latestQuote(s))).Raises? then Raises
    else Done(map s | s in survivors :: LatestPrice(LatestQuote(src.latestQuote(s))).value)
  }

  /** The `price_change` series, unless a subtraction raises. */
  function PriceChanges(survivors: seq<string>, latest: map<string, Value>, src: Sources)
    : (r: Step<map<string, Option<real>>>)
    requires forall s :: s in survivors ==> s in latest
    ensures r.Raises? <==> exists s :: s in survivors && PriceChange(latest[s], src.lastClose(survivors, s)).Raises?
    ensures r.Done? ==> forall s :: s in r.value <==> s in survivors
    ensures r.Done? ==> forall s :: s in survivors ==> (r.value[s].None? <==> latest[s] == Null)
    ensures r.Done? ==> forall s :: s in survivors ==> PriceChange(latest[s], src.lastClose(survivors, s)) == Done(r.value[s])
    ensures r.Done? ==> forall s :: s in survivors && latest[s].Num? ==>
              r.value[s] == Some(latest[s].x - src.lastClose(survivors, s))
  {
    if exists s :: s in survivors && PriceChange(latest[s], src.lastClose(survivors, s)).Raises? then Raises
    else Done(map s | s in survivors :: PriceChange(latest[s], src.lastClose(survivors, s)).value)
  }

  /** What `analyze_risk_exposure` answers. */
  function RiskExposure(stockList: seq<string>, src: Sources): (r: Analysis)
    ensures r.NoData? <==> Survivors(stockList, src) == []
    ensures r.NoData? ==> r.error == NO_DATA_MESSAGE
    ensures Survivors(stockList, src) != [] && src.figures(Survivors(stockList, src)).None? ==> r == Collapsed
    ensures Survivors(stockList, src) != [] && LatestPrices(Survivors(stockList, src), src).Raises? ==> r == Collapsed
    ensures r.Report? ==>
              var survivors := Survivors(stockList, src);
              && src.figures(survivors) == Some(r.figures)
              && r.largestChangeStock in survivors
              && LatestPrices(survivors, src).Done?
              && var changes := PriceChanges(survivors, LatestPrices(survivors, src).value, src);
              && changes.Done?
              && src.largestChange(changes.value) == Some(r.largestChangeStock)
              && r.largestChangeValue == changes.value[r.largestChangeStock]
    ensures var survivors := Survivors(stockList, src);
            r.Report? <==>
              && survivors != []
              && src.figures(survivors).Some?
              && LatestPrices(survivors, src).Done?
              && var changes := PriceChanges(survivors, LatestPrices(survivors, src).value, src);
              && changes.Done?
              && src.largestChange(changes.value).Some?
              && src.largestChange(changes.value).value in changes.value
  {
    var survivors := Survivors(stockList, src);
    if survivors == [] then NoData(NO_DATA_MESSAGE)
    else
      match src.figures(survivors)
      case None => Collapsed
      case Some(figures) =>
        match LatestPrices(survivors, src)
        case Raises => Collapsed
        case Done(latest) =>
          match PriceChanges(survivors, latest, src)
          case Raises => Collapsed
          case Done(change) =>
            match src.largestChange(change)
            case None => Collapsed
            case Some(stock) =>
              if stock in change then Report(figures, stock, change[stock]) else Collapsed
  }

  /** The error record comes back exactly when no symbol has any history. */
  lemma NoDataExactly(stockList: seq<string>, src: Sources)
    ensures RiskExposure(stockList, src) == NoData(NO_DATA_MESSAGE)
            <==> forall s :: s in stockList ==> History(src, s) == []
    ensures RiskExposure(stockList, src).NoData? ==> RiskExposure(stockList, src).error == NO_DATA_MESSAGE
  {
    var survivors := Survivors(stockList, src);
    if survivors != [] {
      assert survivors[0] in survivors;
    }
  }

  /** A kept symbol whose latest price is a string (as a quote that was never
      converted to numbers carries it) makes the analysis raise, so the
      answer is `{}`. */
  lemma StringPriceCollapses(stockList: seq<string>, src: Sources, s: string)
    requires s in stockList && History(src, s) != []
    requires LatestPrice(LatestQuote(src.latestQuote(s))).Done?
    requires LatestPrice(LatestQuote(src.latestQuote(s))).value.Str?
    ensures RiskExposure(stockList, src) == Collapsed
  {
    var survivors := Survivors(stockList, src);
    assert s in survivors;
    match LatestPrices(survivors, src)
    case Raises =>
    case Done(latest) =>
      assert latest[s].Str?;
      assert PriceChange(latest[s], src.lastClose(survivors, s)).Raises?;
  }

  /** A report names a kept symbol, and its change is `None` exactly when that
      symbol had no latest price. */
  lemma ReportNamesKeptSymbol(stockList: seq<string>, src: Sources)
    ensures var r := RiskExposure(stockList, src);
            r.Report? ==>
              && r.largestChangeStock in stockList
              && History(src, r.largestChangeStock) != []
              && (r.largestChangeValue.None?
                  <==> LatestPrice(LatestQuote(src.latestQuote(r.largestChangeStock))) == Done(Null))
  {
    if RiskExposure(stockList, src).Report? {
      var survivors := Survivors(stockList, src);
      var latest := LatestPrices(survivors, src).value;
      var change := PriceChanges(survivors, latest, src).value;
      var stock := src.largestChange(change).value;
      assert stock in survivors;
    }
  }

  /** The latest-price loop of `analyze_risk_exposure`: the first symbol
      whose price cannot be read stops it. */
  method ReadLatestPrices(survivors: seq<string>, src: Sources) returns (r: Step<map<string, Value>>)
    ensures r == LatestPrices(survivors, src)
  {
    var latestPrices: map<string, Value> := map[];
    for i := 0 to |survivors|
      invariant forall s :: s in latestPrices <==> s in survivors[..i]
      invariant forall s :: s in survivors[..i] ==> LatestPrice(LatestQuote(src.latestQuote(s))).Done?
      invariant forall s :: s in latestPrices ==> latestPrices[s] == LatestPrice(LatestQuote(src.latestQuote(s))).value
    {
      var symbol := survivors[i];
      assert survivors[..i + 1] == survivors[..i] + [symbol];
      var price := LatestPrice(LatestQuote(src.latestQuote(symbol)));
      if price.Raises? {
        assert symbol in survivors;
        return Raises;
      }
      latestPrices := latestPrices[symbol := price.value];
    }
    assert survivors[..|survivors|] == survivors;
    assert latestPrices == map s | s in survivors :: LatestPrice(LatestQuote(src.latestQuote(s))).value;
    r := Done(latestPrices);
  }

  /** The price-change loop of `analyze_risk_exposure`: the first
      subtraction that raises stops it. */
  method ComputePriceChanges(survivors: seq<string>, latestPrices: map<string, Value>, src: Sources)
    returns (r: Step<map<string, Option<real>>>)
    requires forall s :: s in survivors ==> s in latestPrices
    ensures r == PriceChanges(survivors, latestPrices, src)
  {
    var priceChange: map<string, Option<real>> := map[];
    for i := 0 to |survivors|
      invariant forall s :: s in priceChange <==> s in survivors[..i]
      invariant forall s :: s in survivors[..i] ==> PriceChange(latestPrices[s], src.lastClose(survivors, s)).Done?
      invariant forall s :: s in priceChange ==>
                  priceChange[s] == PriceChange(latestPrices[s], src.lastClose(survivors, s)).value
    {
      var symbol := survivors[i];
      assert survivors[..i + 1] == survivors[..i] + [symbol];
      var change := PriceChange(latestPrices[symbol], src.lastClose(survivors, symbol));
      if change.Raises? {
        assert symbol in survivors;
        return Raises;
      }
      priceChange := priceChange[symbol := change.value];
    }
    assert survivors[..|survivors|] == survivors;
    assert priceChange == map s | s in survivors :: PriceChange(latestPrices[s], src.lastClose(survivors, s)).value;
    r := Done(priceChange);
  }

  /** `analyze_risk_exposure`, control flow only: the history loop, the
      no-data answer, the latest prices and the price changes; any exception
      on the way gives `{}`. */
  method AnalyzeRiskExposure(stockList: seq<string>, src: Sources) returns (r: Analysis)
    ensures r == RiskExposure(stockList, src)
  {
    var historicalData, survivors := CollectHistory(stockList, src);
    if survivors == [] {
      return NoData(NO_DATA_MESSAGE);
    }
    var figures := src.figures(survivors);
    if figures.None? {
      return Collapsed;
    }
    var latestPrices := ReadLatestPrices(survivors, src);
    if latestPrices.Raises? {
      return Collapsed;
    }
    var priceChange := ComputePriceChanges(survivors, latestPrices.value, src);
    if priceChange.Raises? {
      return Collapsed;
    }
    var stock := src.largestChange(priceChange.value);
    if stock.None? || stock.value !in priceChange.value {
      return Collapsed;
    }
    r := Report(figures.value, stock.value, priceChange.value[stock.value]);
  }
}

=== FILE: api.dfy ===
/** The Alpha Vantage wrapper of api_agent.py: build the query, read the
    decoded JSON answer, and shape it into a table or an HTTP error. The HTTP
    call itself is the `respond` function of a `Provider`; turning a time
    series object into typed rows (`from_dict`, `to_datetime`, `astype(float)`)
    is its `toBars` function. */
module Api {
  import opened Wrappers
  import opened Json

  /** The Alpha Vantage API functions the agent asks for. */
  datatype Function = TimeSeriesDaily | TimeSeriesWeekly | TimeSeriesMonthly | GlobalQuote | Overview

  function Name(f: Function): string {
    match f
    case TimeSeriesDaily => "TIME_SERIES_DAILY"
    case TimeSeriesWeekly => "TIME_SERIES_WEEKLY"
    case TimeSeriesMonthly => "TIME_SERIES_MONTHLY"
    case GlobalQuote => "GLOBAL_QUOTE"
    case Overview => "OVERVIEW"
  }

  predicate IsTimeSeries(f: Function) {
    f.TimeSeriesDaily? || f.TimeSeriesWeekly? || f.TimeSeriesMonthly?
  }

  /** One row of a price series after `astype(float)`; `date` is its index
      entry, in seconds since the epoch. */
  datatype Bar = Bar(date: int, open: real, high: real, low: real, close: real, volume: real)

  /** A pandas DataFrame as the agent builds it: records (a header and rows of
      fields) for quotes and overviews, bars for a price series. */
  datatype Frame = Records(columns: seq<string>, rows: seq<seq<Field>>) | Series(bars: seq<Bar>)

  /** `df.empty`: no rows or no columns. */
  predicate Empty(f: Frame) {
    match f
    case Records(columns, rows) => columns == [] || rows == []
    case Series(bars) => bars == []
  }

  /** `pd.DataFrame()` */
  const EMPTY: Frame := Records([], [])

  /** Why a request failed. */
  datatype Failure =
    | RequestFailed                   // network error, error status or undecodable body
    | ProviderError(message: Value)   // the answer holds "Error Message"
    | MissingKey(key: string)         // KeyError
    | SeriesKeyIndex                  // IndexError: the answer has fewer than two keys
    | SeriesShape                     // the series object could not be made into bars
    | UnsupportedInterval(interval: string)

  /** FastAPI's `HTTPException(status_code, detail)`. */
  datatype HttpException = HttpException(status: int, failure: Failure)

  /** The quote provider: its JSON answer to a query (`None` when the request
      raises), and the conversion of a series object into bars (`None` when
      pandas raises). */
  datatype Provider = Provider(
    respond: map<string, string> -> Option<seq<Field>>,
    toBars: Value -> Option<seq<Bar>>)

  /** `AlphaVantageAgent`; its one field is set once, by the constructor. */
  datatype Agent = Agent(apiKey: string)

  const MISSING_API_KEY: string := "Alpha Vantage API key is required."

  /** `__init__`: a missing or empty key is a ValueError. */
  function NewAgent(apiKey: Option<string>): (r: Result<Agent, string>)
    ensures r.Ok? <==> apiKey.Some? && apiKey.value != ""
    ensures r.Ok? ==> r.value.apiKey == apiKey.value
    ensures r.Err? ==> r.error == MISSING_API_KEY
  {
    if apiKey.None? || apiKey.value == "" then Err(MISSING_API_KEY) else Ok(Agent(apiKey.value))
  }

  /** `{"function": ..., "symbol": ..., "apikey": ..., **params}`: the extra
      parameters come last, so they win over the three fixed ones. */
  function Payload(agent: Agent, fn: Function, symbol: string, params: map<string, string>)
    : (p: map<string, string>)
    ensures p.Keys == {"function", "symbol", "apikey"} + params.Keys
    ensures forall k :: k in params ==> p[k] == params[k]
    ensures "function" !in params ==> p["function"] == Name(fn)
    ensures "symbol" !in params ==> p["symbol"] == symbol
    ensures "apikey" !in params ==> p["apikey"] == agent.apiKey
  {
    map["function" := Name(fn), "symbol" := symbol, "apikey" := agent.apiKey] + params
  }

  /** The column renaming applied to a global quote. */
  const QUOTE_COLUMNS: map<string, string> := map[
    "01. symbol" := "symbol",
    "02. open" := "open",
    "03. high" := "high",
    "04. low" := "low",
    "05. price" := "price",
    "06. volume" := "volume",
    "07. latest trading day" := "latest_trading_day",
    "08. previous close" := "previous_close",
    "09. change" := "change",
    "10. change percent" := "change_percent"
  ]

  /** The renaming has ten entries. */
  lemma QuoteColumnsSize()
    ensures |QUOTE_COLUMNS| == 10
  {
  }

  /** No two quote columns are renamed to the same name. */
  lemma QuoteColumnsInjective(a: string, b: string)
    requires a in QUOTE_COLUMNS && b in QUOTE_COLUMNS && a != b
    ensures QUOTE_COLUMNS[a] != QUOTE_COLUMNS[b]
  {
  }

  function RenameKey(key: string): string {
    if key in QUOTE_COLUMNS then QUOTE_COLUMNS[key] else key
  }

  /** `df.rename(columns=QUOTE_COLUMNS)` on a one-row frame. */
  function RenameFields(fields: seq<Field>): (r: seq<Field>)
    ensures |r| == |fields|
    ensures forall i :: 0 <= i < |fields| ==> r[i] == Field(RenameKey(fields[i].key), fields[i].value)
  {
    if fields == [] then []
    else RenameFields(fields[..|fields| - 1]) + [Field(RenameKey(fields[|fields| - 1].key), fields[|fields| - 1].value)]
  }

  /** After renaming, a renamed column holds what its original column held
      (provided the quote did not already carry the new name). */
  lemma {:induction false} RenamedLookup(fields: seq<Field>, from: string)
    requires from in QUOTE_COLUMNS && !Has(fields, QUOTE_COLUMNS[from])
    ensures Get(RenameFields(fields), QUOTE_COLUMNS[from]) == Get(fields, from)
  {
    var to := QUOTE_COLUMNS[from];
    if fields != [] {
      var front := fields[..|fields| - 1];
      var last := fields[|fields| - 1];
      if last.key in QUOTE_COLUMNS && last.key != from {
        QuoteColumnsInjective(last.key, from);
      }
      assert forall i :: 0 <= i < |front| ==> front[i] == fields[i];
      RenamedLookup(front, from);
      assert RenameFields(fields) == RenameFields(front) + [Field(RenameKey(last.key), last.value)];
      assert RenameFields(fields)[..|fields| - 1] == RenameFields(front);
      assert RenameKey(last.key) == to <==> last.key == from;
    }
  }

  /** The `GLOBAL_QUOTE` branch of `_fetch_data`: a missing quote is a
      KeyError, a falsy one an empty table; an object quote becomes one renamed
      row, and any other value a frame without `latest_trading_day`, whose
      date conversion is a KeyError. */
  function QuoteFrame(data: seq<Field>): (r: Result<Frame, Failure>)
    ensures !Has(data, "Global Quote") ==> r == Err(MissingKey("Global Quote"))
    ensures Has(data, "Global Quote") && !Truthy(Get(data, "Global Quote").value) ==> r == Ok(EMPTY)
    ensures Has(data, "Global Quote") && Truthy(Get(data, "Global Quote").value) ==>
              var quote := Get(data, "Global Quote").value;
              && (!quote.Obj? ==> r == Err(MissingKey("latest_trading_day")))
              && (quote.Obj? ==>
                    var row := RenameFields(quote.fields);
                    r == (if Has(row, "latest_trading_day") then Ok(Records(Keys(row), [row]))
                          else Err(MissingKey("latest_trading_day"))))
    ensures r.Ok? && !Empty(r.value) ==>
              && r.value.Records? && |r.value.rows| == 1
              && Has(r.value.rows[0], "latest_trading_day")
              && r.value.columns == Keys(r.value.rows[0])
  {
    if !Has(data, "Global Quote") then Err(MissingKey("Global Quote"))
    else
      var quote := Get(data, "Global Quote").value;
      if !Truthy(quote) then Ok(EMPTY)
      else if quote.Obj? then
        var row := RenameFields(quote.fields);
        if !Has(row, "latest_trading_day") then Err(MissingKey("latest_trading_day"))
        else Ok(Records(Keys(row), [row]))
      else
        // a scalar or a list becomes a frame with column 0
        Err(MissingKey("latest_trading_day"))
  }

  /** The `OVERVIEW` branch of `_fetch_data`: an answer without "Symbol" is an
      empty table, any other is one row holding the answer's fields. */
  function OverviewFrame(data: seq<Field>): (r: Frame)
    ensures !Has(data, "Symbol") ==> r == EMPTY
    ensures Has(data, "Symbol") ==> r == Records(Keys(data), [data])
    ensures Empty(r) <==> !Has(data, "Symbol")
    ensures !Empty(r) ==> forall c :: c in r.columns <==> Has(r.rows[0], c)
  {
    if !Has(data, "Symbol") then EMPTY else Records(Keys(data), [data])
  }

  /** The time-series branch of `_fetch_data`: the series is read under the
      SECOND key of the answer, whatever that key is; the membership test of
      that key is kept although it cannot fail. */
  function SeriesFrame(data: seq<Field>, toBars: Value -> Option<seq<Bar>>): (r: Result<Frame, Failure>)
    ensures |Keys(data)| < 2 ==> r == Err(SeriesKeyIndex)
    ensures |Keys(data)| >= 2 ==>
              r == (match toBars(Get(data, Keys(data)[1]).value)
                    case None => Err(SeriesShape)
                    case Some(bars) => Ok(Series(bars)))
    ensures forall key :: r != Err(MissingKey(key))
  {
    var keys := Keys(data);
    if |keys| < 2 then Err(SeriesKeyIndex)
    else
      var key := keys[1];
      if !Has(data, key) then Err(MissingKey(key))
      else
        match toBars(Get(data, key).value)
        case None => Err(SeriesShape)
        case Some(bars) => Ok(Series(bars))
  }

  /** How `_fetch_data` reads a decoded answer. */
  function Shape(fn: Function, data: seq<Field>, toBars: Value -> Option<seq<Bar>>)
    : (r: Result<Frame, Failure>)
    ensures Has(data, "Error Message") ==> r == Err(ProviderError(Get(data, "Error Message").value))
    ensures !Has(data, "Error Message") ==>
              r == (match fn
                    case GlobalQuote => QuoteFrame(data)
                    case Overview => Ok(OverviewFrame(data))
                    case _ => SeriesFrame(data, toBars))
    ensures fn == GlobalQuote && !Has(data, "Error Message") && !Has(data, "Global Quote") ==>
              r == Err(MissingKey("Global Quote"))
    ensures (fn == GlobalQuote && !Has(data, "Error Message") && Has(data, "Global Quote")
             && !Truthy(Get(data, "Global Quote").value)) ==> r == Ok(EMPTY)
    ensures fn == GlobalQuote && r.Ok? && !Empty(r.value) ==>
              && r.value.Records? && |r.value.rows| == 1
              && Has(r.value.rows[0], "latest_trading_day")
              && r.value.columns == Keys(r.value.rows[0])
    ensures fn == Overview && !Has(data, "Error Message") ==>
              r.Ok? && (Empty(r.value) <==> !Has(data, "Symbol"))
    ensures IsTimeSeries(fn) ==> forall key :: r != Err(MissingKey(key))
    ensures r.Ok? ==> (r.value.Series? <==> IsTimeSeries(fn))
  {
    if Has(data, "Error Message") then Err(ProviderError(Get(data, "Error Message").value))
    else
      match fn
      case GlobalQuote => QuoteFrame(data)
      case Overview => Ok(OverviewFrame(data))
      case _ => SeriesFrame(data, toBars)
  }

  /** Every key of a list has a first occurrence. */
  lemma FirstExists(xs: seq<string>, x: string) returns (p: int)
    requires x in xs
    ensures FirstAt(xs, x, p)
  {
    p := 0;
    while xs[p] != x
      invariant 0 <= p < |xs| && x in xs[p..]
      invariant forall j :: 0 <= j < p ==> xs[j] != x
      decreases |xs| - p
    {
      assert xs[p..] == [xs[p]] + xs[p + 1..];
      p := p + 1;
    }
  }

  /** A series answer is read under its second distinct key: for the usual
      `{"Meta Data": ..., "Time Series (...)": ...}` that is the series, but
      any other key in second place would be read instead. */
  lemma {:induction false} SeriesReadsSecondKey(fn: Function, first: Field, second: Field, rest: seq<Field>,
                                               toBars: Value -> Option<seq<Bar>>)
    requires IsTimeSeries(fn) && first.key != second.key
    requires !Has([first, second] + rest, "Error Message")
    ensures var data := [first, second] + rest;
            |Keys(data)| >= 2 && Keys(data)[1] == second.key && Has(data, second.key)
    ensures var data := [first, second] + rest;
            Shape(fn, data, toBars)
            == (match toBars(Get(data, second.key).value)
                case None => Err(SeriesShape)
                case Some(bars) => Ok(Series(bars)))
  {
    var data := [first, second] + rest;
    var raw := KeyList(data);
    var keys := Keys(data);
    assert Has(data, second.key) by { assert data[1].key == second.key; }
    assert keys[0] == first.key;
    var j :| 0 <= j < |keys| && keys[j] == second.key;
    assert j != 0;
    assert FirstAt(raw, second.key, 1);
    assert Has(data, keys[1]);
    var i :| 0 <= i < |data| && data[i].key == keys[1];
    var q := FirstExists(raw, keys[1]);
    assert q != 0 by { assert raw[0] == first.key; }
    if j != 1 {
      assert false;
    }
  }

  /** A quote with a price and a trading day, and without the new names,
      keeps both under their new names. */
  lemma RenamedQuoteRow(q: seq<Field>)
    requires Has(q, "05. price") && Has(q, "07. latest trading day")
    requires !Has(q, "price") && !Has(q, "latest_trading_day")
    ensures Has(RenameFields(q), "latest_trading_day")
    ensures Get(RenameFields(q), "price") == Get(q, "05. price")
  {
    assert QUOTE_COLUMNS["05. price"] == "price";
    assert QUOTE_COLUMNS["07. latest trading day"] == "latest_trading_day";
    RenamedLookup(q, "05. price");
    RenamedLookup(q, "07. latest trading day");
  }

  /** A full quote answer (price and trading day present, new names not
      already used) gives one row whose "price" is the quote's "05. price". */
  lemma QuotePriceRenamed(data: seq<Field>, quote: seq<Field>)
    requires Get(data, "Global Quote") == Some(Obj(quote))
    requires Has(quote, "05. price") && Has(quote, "07. latest trading day")
    requires !Has(quote, "price") && !Has(quote, "latest_trading_day")
    ensures var r := QuoteFrame(data);
            && r.Ok? && r.value.Records? && |r.value.rows| == 1
            && Get(r.value.rows[0], "price") == Get(quote, "05. price")
  {
    RenamedQuoteRow(quote);
    assert Truthy(Obj(quote)) by { assert quote != []; }
  }

  /** `_fetch_data`: every failure, whatever its cause, is an HTTP 500. */
  function FetchData(agent: Agent, provider: Provider, fn: Function, symbol: string,
                     params: map<string, string>): (r: Result<Frame, HttpException>)
    ensures r.Err? ==> r.error.status == 500
    ensures provider.respond(Payload(agent, fn, symbol, params)).None? ==>
              r == Err(HttpException(500, RequestFailed))
    ensures provider.respond(Payload(agent, fn, symbol, params)).Some? ==>
              var shaped := Shape(fn, provider.respond(Payload(agent, fn, symbol, params)).value,
                                  provider.toBars);
              r == (if shaped.Ok? then Ok(shaped.value) else Err(HttpException(500, shaped.error)))
  {
    match provider.respond(Payload(agent, fn, symbol, params))
    case None => Err(HttpException(500, RequestFailed))
    case Some(data) =>
      match Shape(fn, data, provider.toBars)
      case Ok(frame) => Ok(frame)
      case Err(failure) => Err(HttpException(500, failure))
  }

  /** One symbol's entry in `get_stock_prices`: the quote, or an empty frame
      when fetching it raised. */
  function QuoteOrEmpty(agent: Agent, provider: Provider, symbol: string): (f: Frame)
    ensures FetchData(agent, provider, GlobalQuote, symbol, map[]).Err? ==> f == EMPTY
    ensures FetchData(agent, provider, GlobalQuote, symbol, map[]).Ok? ==>
              f == FetchData(agent, provider, GlobalQuote, symbol, map[]).value
  {
    match FetchData(agent, provider, GlobalQuote, symbol, map[])
    case Ok(frame) => frame
    case Err(_) => EMPTY
  }

  /** `get_stock_prices`: an entry for every requested symbol; a failed fetch
      stores an empty frame instead of raising. */
  method GetStockPrices(agent: Agent, provider: Provider, symbols: seq<string>)
    returns (results: map<string, Frame>)
    ensures results.Keys == set s | s in symbols
    ensures forall s :: s in symbols ==> results[s] == QuoteOrEmpty(agent, provider, s)
  {
    results := map[];
    for i := 0 to |symbols|
      invariant results.Keys == set s | s in symbols[..i]
      invariant forall s :: s in results ==> results[s] == QuoteOrEmpty(agent, provider, s)
    {
      var symbol := symbols[i];
      assert symbols[..i + 1] == symbols[..i] + [symbol];
      match FetchData(agent, provider, GlobalQuote, symbol, map[]) {
        case Ok(frame) =>
          results := results[symbol := frame];
        case Err(_) =>
          results := results[symbol := EMPTY];
      }
    }
    assert symbols[..|symbols|] == symbols;
  }

  const SUPPORTED_INTERVALS: set<string> := {"1d", "1wk", "1mo"}

  /** The series an interval asks for. */
  function IntervalFunction(interval: string): (f: Option<Function>)
    ensures f.Some? <==> interval in SUPPORTED_INTERVALS
    ensures f.Some? ==> IsTimeSeries(f.value)
  {
    if interval == "1d" then Some(TimeSeriesDaily)
    else if interval == "1wk" then Some(TimeSeriesWeekly)
    else if interval == "1mo" then Some(TimeSeriesMonthly)
    else None
  }

  /** The three supported intervals ask for three different series. */
  lemma IntervalsDistinct(a: string, b: string)
    requires a in SUPPORTED_INTERVALS && b in SUPPORTED_INTERVALS && a != b
    ensures IntervalFunction(a) != IntervalFunction(b)
  {
  }

  /** `get_historical_data`: an unsupported interval is a 400 raised before
      anything is fetched; otherwise the full series for that interval. The
      `period` argument is not used. */
  function GetHistoricalData(agent: Agent, provider: Provider, symbol: string, interval: string)
    : (r: Result<Frame, HttpException>)
    ensures interval !in SUPPORTED_INTERVALS ==> r == Err(HttpException(400, UnsupportedInterval(interval)))
    ensures (r.Err? && r.error.status == 400) <==> interval !in SUPPORTED_INTERVALS
    ensures interval in SUPPORTED_INTERVALS ==>
              r == FetchData(agent, provider, IntervalFunction(interval).value, symbol, map["outputsize" := "full"])
    ensures r.Ok? ==> r.value.Series?
  {
    match IntervalFunction(interval)
    case None => Err(HttpException(400, UnsupportedInterval(interval)))
    case Some(fn) => FetchData(agent, provider, fn, symbol, map["outputsize" := "full"])
  }

  /** The query a supported interval sends: its series, the symbol, the key
      and `outputsize=full`. */
  lemma HistoricalQuery(agent: Agent, symbol: string, interval: string)
    requires interval in SUPPORTED_INTERVALS
    ensures var p := Payload(agent, IntervalFunction(interval).value, symbol, map["outputsize" := "full"]);
            && p.Keys == {"function", "symbol", "apikey", "outputsize"}
            && p["outputsize"] == "full" && p["symbol"] == symbol && p["apikey"] == agent.apiKey
            && p["function"] == (if interval == "1d" then "TIME_SERIES_DAILY"
                                 else if interval == "1wk" then "TIME_SERIES_WEEKLY"
                                 else "TIME_SERIES_MONTHLY")
  {
  }

  /** `get_company_overview`: the overview query; an answer without
      "Symbol" is an empty table, any other one row of the answer's fields. */
  function GetCompanyOverview(agent: Agent, provider: Provider, symbol: string): (r: Result<Frame, HttpException>)
    ensures r.Err? ==> r.error.status == 500
    ensures var answer := provider.respond(Payload(agent, Overview, symbol, map[]));
            && (answer.None? ==> r == Err(HttpException(500, RequestFailed)))
            && (answer.Some? && Has(answer.value, "Error Message") ==>
                  r == Err(HttpException(500, ProviderError(Get(answer.value, "Error Message").value))))
            && (answer.Some? && !Has(answer.value, "Error Message") ==>
                  && r == Ok(OverviewFrame(answer.value))
                  && (Empty(r.value) <==> !Has(answer.value, "Symbol")))
    ensures r.Ok? ==> r.value.Records?
    ensures r.Ok? && !Empty(r.value) ==> |r.value.rows| == 1 && Has(r.value.rows[0], "Symbol")
  {
    FetchData(agent, provider, Overview, symbol, map[])
  }

  /** `df.to_dict(orient='records')` of one bar: the date index is dropped. */
  function BarRecord(b: Bar): Value {
    Obj([Field("open", Num(b.open)), Field("high", Num(b.high)), Field("low", Num(b.low)),
         Field("close", Num(b.close)), Field("volume", Num(b.volume))])
  }

  /** What an endpoint returns for a frame: `{}` when it is empty, otherwise
      one record per row. */
  function EndpointBody(f: Frame): (v: Value)
    ensures Empty(f) <==> v == Obj([])
    ensures !Empty(f) ==> v.Arr? && |v.items| == (if f.Records? then |f.rows| else |f.bars|)
  {
    if Empty(f) then Obj([])
    else
      match f
      case Records(_, rows) => Arr(seq(|rows|, i requires 0 <= i < |rows| => Obj(rows[i])))
      case Series(bars) => Arr(seq(|bars|, i requires 0 <= i < |bars| => BarRecord(bars[i])))
  }
}

=== FILE: json.dfy ===
/** Decoded JSON, as `response.json()` hands it to the agents. A JSON object
    becomes a Python dict, which remembers the order of its keys; the model
    keeps an object as the list of its fields in document order, and reads it
    the way a dict built by `json.loads` does: a repeated key keeps its first
    position and takes its last value. */
module Json {
  import opened Wrappers

  datatype Value =
    | Null
    | Bool(b: bool)
    | Num(x: real)
    | Str(s: string)
    | Arr(items: seq<Value>)
    | Obj(fields: seq<Field>)

  datatype Field = Field(key: string, value: Value)

  /** Python truthiness of a decoded value (`if not value:`). */
  predicate Truthy(v: Value) {
    match v
    case Null => false
    case Bool(b) => b
    case Num(x) => x != 0.0
    case Str(s) => s != ""
    case Arr(items) => items != []
    case Obj(fields) => fields != []
  }

  /** `key in d` */
  predicate Has(fields: seq<Field>, key: string) {
    exists i :: 0 <= i < |fields| && fields[i].key == key
  }

  /** `x` occurs first at index `p` of `xs`. */
  predicate FirstAt(xs: seq<string>, x: string, p: int) {
    0 <= p < |xs| && xs[p] == x && forall j :: 0 <= j < p ==> xs[j] != x
  }

  /** The elements of `r` appear in the order of their first occurrences in
      `xs`. */
  ghost predicate FirstOrdered(xs: seq<string>, r: seq<string>) {
    forall i, j, p, q :: 0 <= i < j < |r| && FirstAt(xs, r[i], p) && FirstAt(xs, r[j], q) ==> p < q
  }

  /** An element of `xs` without its last element first occurs before the end. */
  lemma FirstInFront(xs: seq<string>, x: string, p: int)
    requires xs != [] && x in xs[..|xs| - 1] && FirstAt(xs, x, p)
    ensures p < |xs| - 1 && FirstAt(xs[..|xs| - 1], x, p)
  {
    var k :| 0 <= k < |xs| - 1 && xs[..|xs| - 1][k] == x;
    assert xs[k] == x;
  }

  /** Removes repeated elements, keeping each first occurrence in place. */
  function Dedup(xs: seq<string>): (r: seq<string>)
    ensures forall x :: x in r <==> x in xs
    ensures forall i, j :: 0 <= i < j < |r| ==> r[i] != r[j]
    ensures FirstOrdered(xs, r)
    ensures xs != [] ==> r != [] && r[0] == xs[0]
    ensures |r| <= |xs|
  {
    if xs == [] then []
    else
      var front := xs[..|xs| - 1];
      var d := Dedup(front);
      var x := xs[|xs| - 1];
      assert xs == front + [x];
      assert forall y, p :: y in d && FirstAt(xs, y, p) ==> p < |front| && FirstAt(front, y, p) by {
        forall y, p | y in d && FirstAt(xs, y, p) ensures p < |front| && FirstAt(front, y, p) {
          FirstInFront(xs, y, p);
        }
      }
      if x in d then d
      else
        assert forall q :: FirstAt(xs, x, q) ==> q == |front|;
        d + [x]
  }

  /** The keys of `fields` in document order, repeats included. */
  function KeyList(fields: seq<Field>): (raw: seq<string>)
    ensures |raw| == |fields|
    ensures forall i :: 0 <= i < |fields| ==> raw[i] == fields[i].key
  {
    seq(|fields|, i requires 0 <= i < |fields| => fields[i].key)
  }

  /** `list(d.keys())`: the distinct keys in order of first appearance. */
  function Keys(fields: seq<Field>): (r: seq<string>)
    ensures forall k :: k in r <==> Has(fields, k)
    ensures forall i, j :: 0 <= i < j < |r| ==> r[i] != r[j]
    ensures FirstOrdered(KeyList(fields), r)
    ensures fields != [] ==> r != [] && r[0] == fields[0].key
    ensures |r| <= |fields|
  {
    var raw := KeyList(fields);
    assert forall k :: k in raw <==> Has(fields, k) by {
      forall k ensures k in raw <==> Has(fields, k) {
        if k in raw {
          var i :| 0 <= i < |raw| && raw[i] == k;
          assert fields[i].key == k;
        }
        if Has(fields, k) {
          var i :| 0 <= i < |fields| && fields[i].key == k;
          assert raw[i] == k;
        }
      }
    }
    Dedup(raw)
  }

  /** The field at `i` is the last one carrying `key`. */
  predicate LastKeyAt(fields: seq<Field>, key: string, i: int) {
    0 <= i < |fields| && fields[i].key == key && forall j :: i < j < |fields| ==> fields[j].key != key
  }

  /** `d[key]` (or `d.get(key)`): the value of the LAST field with that key. */
  function Get(fields: seq<Field>, key: string): (r: Option<Value>)
    ensures r.Some? <==> Has(fields, key)
    ensures r.Some? ==> Field(key, r.value) in fields
    ensures r.Some? ==> exists i :: LastKeyAt(fields, key, i) && fields[i].value == r.value
  {
    if fields == [] then None
    else if fields[|fields| - 1].key == key then
      assert LastKeyAt(fields, key, |fields| - 1);
      Some(fields[|fields| - 1].value)
    else
      var front := fields[..|fields| - 1];
      assert Has(fields, key) <==> Has(front, key) by {
        if Has(fields, key) {
          var i :| 0 <= i < |fields| && fields[i].key == key;
          assert front[i].key == key;
        }
        if Has(front, key) {
          var i :| 0 <= i < |front| && front[i].key == key;
          assert fields[i].key == key;
        }
      }
      assert forall i :: LastKeyAt(front, key, i) ==> LastKeyAt(fields, key, i);
      Get(front, key)
  }

  /** Only the last field with a key is read: a later field with the same key
      overrides every earlier one. */
  lemma GetLastWins(fields: seq<Field>, key: string, v: Value)
    ensures Get(fields + [Field(key, v)], key) == Some(v)
  {
    assert (fields + [Field(key, v)])[|fields|] == Field(key, v);
  }
}

=== FILE: orchestrator.dfy ===
/** `Orchestrator.handle_query` in orchestrator.py: a keyword test picks the
    market-data branch, the filings branch or a fixed apology, and the chosen
    response is both spoken and returned. What the downstream agents answer
    is a parameter. */
module Orchestrator {
  import opened Strings

  const MARKET_DATA: string := "market data"
  const FILINGS: string := "filings"
  const APOLOGY: string := "Sorry, I couldn't understand your request."

  datatype Branch = MarketDataBranch | FilingsBranch | Unrecognised

  /** What the calls of one branch give: the language agent's response, or
      an exception that leaves `handle_query`. */
  datatype Outcome = Responded(text: string) | Raised

  /** The downstream agents: the market-data chain, the filings chain for a
      given query, and whether the voice agent's `tts` call on a response
      returns (rather than raising). */
  datatype Downstream = Downstream(marketData: Outcome, filings: string -> Outcome, speaks: string -> bool)

  /** The text handed to text-to-speech and the text returned, or the
      exception. */
  datatype Reply = Reply(spoken: string, response: string) | Failed

  /** In this repository every downstream call names a method its agent does
      not define (`get_market_data`, `get_relevant_filings`,
      `analyze_market_data`, `analyze_filings`), so both chains raise
      AttributeError; and the voice agent defines `speak_text` but no `tts`,
      so the final call raises AttributeError whatever the response. */
  const AS_WRITTEN: Downstream := Downstream(Raised, _ => Raised, _ => false)

  /** The branch `handle_query` takes: a case-sensitive substring test, with
      "market data" tried before "filings". */
  function Route(query: string): (b: Branch)
    ensures b == MarketDataBranch <==> Contains(query, MARKET_DATA)
    ensures b == FilingsBranch <==> !Contains(query, MARKET_DATA) && Contains(query, FILINGS)
    ensures b == Unrecognised <==> !Contains(query, MARKET_DATA) && !Contains(query, FILINGS)
  {
    if Contains(query, MARKET_DATA) then MarketDataBranch
    else if Contains(query, FILINGS) then FilingsBranch
    else Unrecognised
  }

  function Chain(b: Branch, query: string, downstream: Downstream): Outcome {
    match b
    case MarketDataBranch => downstream.marketData
    case FilingsBranch => downstream.filings(query)
    case Unrecognised => Responded(APOLOGY)
  }

  /** `handle_query`: the response of the chosen branch is spoken, then
      returned; an exception from the branch or from text-to-speech leaves
      the call. */
  function HandleQuery(query: string, downstream: Downstream): (r: Reply)
    ensures r.Reply? ==> r.spoken == r.response && downstream.speaks(r.response)
    ensures !Contains(query, MARKET_DATA) && !Contains(query, FILINGS) ==>
              r == (if downstream.speaks(APOLOGY) then Reply(APOLOGY, APOLOGY) else Failed)
    ensures Contains(query, MARKET_DATA) ==>
              (r.Failed? <==> downstream.marketData.Raised? || !downstream.speaks(downstream.marketData.text))
              && (r.Reply? ==> r.response == downstream.marketData.text)
    ensures !Contains(query, MARKET_DATA) && Contains(query, FILINGS) ==>
              (r.Failed? <==> downstream.filings(query).Raised? || !downstream.speaks(downstream.filings(query).text))
              && (r.Reply? ==> r.response == downstream.filings(query).text)
  {
    match Chain(Route(query), query, downstream)
    case Raised => Failed
    case Responded(response) =>
      if downstream.speaks(response) then Reply(response, response) else Failed
  }

  /** With the downstream calls as this repository writes them, no query is
      answered: every call of `handle_query` raises. */
  lemma NothingAnswered(query: string)
    ensures HandleQuery(query, AS_WRITTEN) == Failed
  {
  }

  /** With both chains as written but a text-to-speech call that works, a
      query is answered exactly when it matches neither keyword and the
      apology can be spoken, and then with the apology. */
  lemma OnlyApologyAnswers(query: string, speaks: string -> bool)
    ensures var r := HandleQuery(query, Downstream(Raised, _ => Raised, speaks));
            && (r.Reply? <==> Route(query) == Unrecognised && speaks(APOLOGY))
            && (r.Reply? ==> r == Reply(APOLOGY, APOLOGY))
  {
  }

  /** Matching is case-sensitive: a query without lower-case ASCII letters
      never matches a keyword, however it spells one in capitals. */
  lemma {:induction false} UpperCaseUnrecognised(query: string)
    requires forall i :: 0 <= i < |query| ==> !('a' <= query[i] <= 'z')
    ensures Route(query) == Unrecognised
  {
    ContainsAt(query, MARKET_DATA);
    ContainsAt(query, FILINGS);
    NoLowerNoOccurrence(query, MARKET_DATA);
    NoLowerNoOccurrence(query, FILINGS);
  }

  /** A keyword starting with a lower-case letter occurs nowhere in a text
      without one. */
  lemma NoLowerNoOccurrence(query: string, keyword: string)
    requires keyword != [] && 'a' <= keyword[0] <= 'z'
    requires forall i :: 0 <= i < |query| ==> !('a' <= query[i] <= 'z')
    ensures forall i :: !OccursAt(query, keyword, i)
  {
    forall i ensures !OccursAt(query, keyword, i) {
      if 0 <= i <= |query| - |keyword| {
        assert query[i..i + |keyword|][0] == query[i];
      }
    }
  }
}

=== FILE: retriever.dfy ===
/** The in-memory retrieval store of retriever_agent.py: three parallel lists
    (texts, embedding rows, metadata dicts) that `add_texts` extends in place,
    and a FAISS-backed variant whose nearest-neighbour index is abstracted to
    its size and dimension, with the index's search answer passed in. */
module Retriever {
  import opened Wrappers
  import Json

  /** The element type of a numpy array. */
  datatype DType = Float32 | Float64 | OtherDType(name: string)

  type Vector = seq<real>

  /** A two-dimensional numpy array of embeddings: its dtype, `shape[1]` and
      its rows (`shape[0]` is the number of rows). */
  datatype Matrix = Matrix(dtype: DType, width: nat, rows: seq<Vector>)

  type Metadata = map<string, Json.Value>

  /** One `{"text": ..., "embedding": ..., "metadata": ...}` record. */
  datatype Entry = Entry(text: string, embedding: Vector, metadata: Metadata)

  /** The ValueErrors the store raises, and the assertion FAISS fails when a
      vector's width is not the index dimension. */
  datatype Error =
    | CountMismatch(texts: nat, embeddings: nat)
    | MetadataMismatch
    | EmbeddingsNotFloat32
    | DimensionMismatch(expected: nat, actual: nat)
    | EmptyIndex
    | QueryNotFloat32
    /** FAISS's search refuses a result count `k <= 0`. */
    | NonPositiveTopK(k: int)

  /** `if metadata:` -- both `None` and `[]` count as "no metadata". */
  predicate HasMetadata(metadata: Option<seq<Metadata>>) {
    metadata.Some? && metadata.value != []
  }

  /** The two checks `BaseRetriever.add_texts` makes before touching anything. */
  function CheckAdd(texts: seq<string>, embeddings: Matrix, metadata: Option<seq<Metadata>>): (r: Option<Error>)
    ensures r.None? <==> |texts| == |embeddings.rows|
                         && (HasMetadata(metadata) ==> |metadata.value| == |texts|)
    ensures |texts| != |embeddings.rows| ==> r == Some(CountMismatch(|texts|, |embeddings.rows|))
  {
    if |texts| != |embeddings.rows| then Some(CountMismatch(|texts|, |embeddings.rows|))
    else if HasMetadata(metadata) && |metadata.value| != |texts| then Some(MetadataMismatch)
    else None
  }

  /** `metadata if metadata else [{} for _ in texts]` */
  function MetadataRows(metadata: Option<seq<Metadata>>, n: nat): (r: seq<Metadata>)
    requires HasMetadata(metadata) ==> |metadata.value| == n
    ensures |r| == n
    ensures HasMetadata(metadata) ==> r == metadata.value
    ensures !HasMetadata(metadata) ==> forall i :: 0 <= i < n ==> r[i] == map[]
  {
    if HasMetadata(metadata) then metadata.value else seq(n, _ => map[])
  }

  /** `zip(texts, embeddings, metadata)` turned into records. */
  function Zip(texts: seq<string>, embeddings: seq<Vector>, metadata: seq<Metadata>): (r: seq<Entry>)
    requires |texts| == |embeddings| == |metadata|
    ensures |r| == |texts|
    ensures forall i :: 0 <= i < |r| ==> r[i] == Entry(texts[i], embeddings[i], metadata[i])
  {
    if texts == [] then []
    else [Entry(texts[0], embeddings[0], metadata[0])] + Zip(texts[1..], embeddings[1..], metadata[1..])
  }

  /** Zipping concatenated lists is concatenating the zipped lists. */
  lemma ZipAppend(t1: seq<string>, e1: seq<Vector>, m1: seq<Metadata>,
                  t2: seq<string>, e2: seq<Vector>, m2: seq<Metadata>)
    requires |t1| == |e1| == |m1| && |t2| == |e2| == |m2|
    ensures Zip(t1 + t2, e1 + e2, m1 + m2) == Zip(t1, e1, m1) + Zip(t2, e2, m2)
  {
    var z := Zip(t1 + t2, e1 + e2, m1 + m2);
    var w := Zip(t1, e1, m1) + Zip(t2, e2, m2);
    assert |z| == |w|;
    forall i | 0 <= i < |z| ensures z[i] == w[i] {
      if i >= |t1| {
        assert (t1 + t2)[i] == t2[i - |t1|];
        assert (e1 + e2)[i] == e2[i - |t1|];
        assert (m1 + m2)[i] == m2[i - |t1|];
      }
    }
  }

  /** The records a search answer names, in the order of the answer; FAISS
      pads an answer with -1 when it has fewer than `top_k` hits. */
  function Hits(entries: seq<Entry>, hits: seq<int>): (r: seq<Entry>)
    requires forall j :: 0 <= j < |hits| ==> hits[j] == -1 || 0 <= hits[j] < |entries|
    ensures |r| <= |hits|
    ensures forall e :: e in r ==> e in entries
  {
    if hits == [] then []
    else
      var i := hits[|hits| - 1];
      Hits(entries, hits[..|hits| - 1]) + (if i == -1 then [] else [entries[i]])
  }

  /** `[i for i in hits if i != -1]` */
  function Real(hits: seq<int>): (r: seq<int>)
    ensures forall j :: 0 <= j < |r| ==> r[j] != -1
    ensures forall i :: i in r <==> i in hits && i != -1
    ensures |r| <= |hits|
  {
    if hits == [] then []
    else Real(hits[..|hits| - 1]) + (if hits[|hits| - 1] == -1 then [] else [hits[|hits| - 1]])
  }

  /** The real hits keep FAISS's ranking: filtering a concatenation is
      concatenating the filtered parts. */
  lemma {:induction false} RealAppend(a: seq<int>, b: seq<int>)
    ensures Real(a + b) == Real(a) + Real(b)
    decreases |b|
  {
    if b != [] {
      var front := b[..|b| - 1];
      assert (a + b)[..|a + b| - 1] == a + front;
      assert (a + b)[|a + b| - 1] == b[|b| - 1];
      RealAppend(a, front);
    } else {
      assert a + b == a;
    }
  }

  /** Padding contributes nothing: the records are those of the real hits. */
  lemma {:induction false} HitsIgnorePadding(entries: seq<Entry>, hits: seq<int>)
    requires forall j :: 0 <= j < |hits| ==> hits[j] == -1 || 0 <= hits[j] < |entries|
    ensures forall j :: 0 <= j < |Real(hits)| ==> 0 <= Real(hits)[j] < |entries|
    ensures Hits(entries, hits) == Hits(entries, Real(hits))
  {
    if hits != [] {
      var front := hits[..|hits| - 1];
      HitsIgnorePadding(entries, front);
      var i := hits[|hits| - 1];
      if i != -1 {
        var rf := Real(front);
        assert Real(hits) == rf + [i];
        assert (rf + [i])[..|rf + [i]| - 1] == rf;
        assert Hits(entries, rf + [i]) == Hits(entries, rf) + [entries[i]];
      } else {
        assert Real(hits) == Real(front);
      }
    }
  }

  /** Without padding, the j-th record returned is the entry stored at the
      j-th index of the answer. */
  lemma {:induction false} HitsAt(entries: seq<Entry>, hits: seq<int>)
    requires forall j :: 0 <= j < |hits| ==> 0 <= hits[j] < |entries|
    ensures |Hits(entries, hits)| == |hits|
    ensures forall j :: 0 <= j < |hits| ==> Hits(entries, hits)[j] == entries[hits[j]]
  {
    if hits != [] {
      HitsAt(entries, hits[..|hits| - 1]);
    }
  }

  /** `BaseRetriever`: the three parallel lists. */
  class BaseRetriever {
    var texts: seq<string>
    var embeddings: seq<Vector>
    var metadata: seq<Metadata>

    /** The lists stay the same length (they are only ever extended together). */
    ghost predicate Valid()
      reads this
    {
      |texts| == |embeddings| == |metadata|
    }

    /** `__init__`: three empty lists. */
    constructor ()
      ensures Valid()
      ensures texts == [] && embeddings == [] && metadata == []
    {
      texts, embeddings, metadata := [], [], [];
    }

    /** `add_texts`: reject a count mismatch or a mismatched metadata list and
        change nothing; otherwise extend all three lists by `|newTexts|`
        entries, filling absent metadata with empty dicts. */
    method AddTexts(newTexts: seq<string>, newEmbeddings: Matrix, newMetadata: Option<seq<Metadata>>)
      returns (err: Option<Error>)
      requires Valid()
      modifies this
      ensures Valid()
      ensures err == CheckAdd(newTexts, newEmbeddings, newMetadata)
      ensures err.Some? ==> texts == old(texts) && embeddings == old(embeddings) && metadata == old(metadata)
      ensures err.None? ==>
                && texts == old(texts) + newTexts
                && embeddings == old(embeddings) + newEmbeddings.rows
                && metadata == old(metadata) + MetadataRows(newMetadata, |newTexts|)
      ensures err.None? && !HasMetadata(newMetadata) ==>
                forall i :: old(|metadata|) <= i < |metadata| ==> metadata[i] == map[]
      ensures err.None? ==>
                GetAll() == old(GetAll()) + Zip(newTexts, newEmbeddings.rows, MetadataRows(newMetadata, |newTexts|))
    {
      err := CheckAdd(newTexts, newEmbeddings, newMetadata);
      if err.Some? {
        return;
      }
      ghost var t0, e0, m0 := texts, embeddings, metadata;
      var rows := MetadataRows(newMetadata, |newTexts|);
      texts := texts + newTexts;
      embeddings := embeddings + newEmbeddings.rows;
      metadata := metadata + rows;
      ZipAppend(t0, e0, m0, newTexts, newEmbeddings.rows, rows);
    }

    /** `get_all`: one record per stored entry, in insertion order. */
    function GetAll(): (r: seq<Entry>)
      reads this
      requires Valid()
      ensures |r| == |texts|
      ensures forall i :: 0 <= i < |r| ==> r[i] == Entry(texts[i], embeddings[i], metadata[i])
    {
      Zip(texts, embeddings, metadata)
    }
  }

  /** What `FAISSRetriever.add_texts` reports, in the order it checks: the
      dtype, then the base store's checks, then the index dimension (checked by
      FAISS only after the base lists have been extended). */
  function FaissAddCheck(embeddingDim: nat, texts: seq<string>, embeddings: Matrix,
                         metadata: Option<seq<Metadata>>): (r: Option<Error>)
    ensures embeddings.dtype != Float32 ==> r == Some(EmbeddingsNotFloat32)
    ensures embeddings.dtype == Float32 && CheckAdd(texts, embeddings, metadata).Some? ==>
              r == CheckAdd(texts, embeddings, metadata)
    ensures embeddings.dtype == Float32 && CheckAdd(texts, embeddings, metadata).None?
            && embeddings.width != embeddingDim ==>
              r == Some(DimensionMismatch(embeddingDim, embeddings.width))
    ensures r.None? <==> embeddings.dtype == Float32 && CheckAdd(texts, embeddings, metadata).None?
                         && embeddings.width == embeddingDim
  {
    if embeddings.dtype != Float32 then Some(EmbeddingsNotFloat32)
    else if CheckAdd(texts, embeddings, metadata).Some? then CheckAdd(texts, embeddings, metadata)
    else if embeddings.width != embeddingDim then Some(DimensionMismatch(embeddingDim, embeddings.width))
    else None
  }

  /** `FAISSRetriever`: a base store plus a flat L2 index, modelled by the
      index dimension and `index.ntotal`, the number of vectors it holds. */
  class FAISSRetriever {
    const store: BaseRetriever
    const embeddingDim: nat
    var ntotal: nat

    /** Every position the index can answer with names a stored entry. */
    ghost predicate Valid()
      reads this, store
    {
      store.Valid() && ntotal <= |store.texts|
    }

    /** `__init__` when FAISS is installed: empty lists, empty index. */
    constructor (embeddingDim: nat)
      ensures Valid() && fresh(store)
      ensures this.embeddingDim == embeddingDim && ntotal == 0
      ensures store.texts == [] && store.embeddings == [] && store.metadata == []
    {
      store := new BaseRetriever();
      this.embeddingDim := embeddingDim;
      ntotal := 0;
    }

    /** `__init__` in full: the ImportError when FAISS is missing. */
    static method Create(embeddingDim: nat, faissInstalled: bool) returns (r: Option<FAISSRetriever>)
      ensures r.Some? <==> faissInstalled
      ensures r.Some? ==> && fresh(r.value) && fresh(r.value.store) && r.value.Valid()
                          && r.value.embeddingDim == embeddingDim && r.value.ntotal == 0
                          && r.value.store.GetAll() == []
    {
      if !faissInstalled {
        return None;
      }
      var f := new FAISSRetriever(embeddingDim);
      r := Some(f);
    }

    /** `add_texts`: a wrong dtype or a failed base check changes nothing; a
        wrong width is caught by the index only after the base lists have grown,
        so the lists keep the new entries and the index does not. */
    method AddTexts(newTexts: seq<string>, newEmbeddings: Matrix, newMetadata: Option<seq<Metadata>>)
      returns (err: Option<Error>)
      requires Valid()
      modifies this, store
      ensures Valid()
      ensures err == FaissAddCheck(embeddingDim, newTexts, newEmbeddings, newMetadata)
      ensures (err.None? || err.value.DimensionMismatch?) ==>
                && store.texts == old(store.texts) + newTexts
                && store.embeddings == old(store.embeddings) + newEmbeddings.rows
                && store.metadata == old(store.metadata) + MetadataRows(newMetadata, |newTexts|)
      ensures !(err.None? || err.value.DimensionMismatch?) ==>
                && store.texts == old(store.texts)
                && store.embeddings == old(store.embeddings)
                && store.metadata == old(store.metadata)
      ensures ntotal == if err.None? then old(ntotal) + |newEmbeddings.rows| else old(ntotal)
      ensures err.None? ==> |store.texts| - ntotal == old(|store.texts| - ntotal)
      ensures err.Some? && err.value.DimensionMismatch? ==>
                |store.texts| - ntotal == old(|store.texts| - ntotal) + |newTexts|
    {
      if newEmbeddings.dtype != Float32 {
        return Some(EmbeddingsNotFloat32);
      }
      err := store.AddTexts(newTexts, newEmbeddings, newMetadata);
      if err.Some? {
        return;
      }
      if newEmbeddings.width != embeddingDim {
        return Some(DimensionMismatch(embeddingDim, newEmbeddings.width));
      }
      ntotal := ntotal + |newEmbeddings.rows|;
    }

    /** `retrieve`: an empty index and a non-float32 query are errors, and
        the search itself rejects a query of the wrong width and then a
        `top_k` that is not positive; otherwise `hits`, the index's answer to
        the search (`top_k` positions, each below `ntotal` or -1), is turned
        into the stored records it names, skipping -1. */
    method Retrieve(query: Vector, queryDtype: DType, topK: int, hits: seq<int>)
      returns (r: Result<seq<Entry>, Error>)
      requires Valid()
      requires topK > 0 ==> |hits| == topK
      requires forall j :: 0 <= j < |hits| ==> hits[j] == -1 || 0 <= hits[j] < ntotal
      ensures ntotal == 0 ==> r == Err(EmptyIndex)
      ensures ntotal > 0 && queryDtype != Float32 ==> r == Err(QueryNotFloat32)
      ensures ntotal > 0 && queryDtype == Float32 && |query| != embeddingDim ==>
                r == Err(DimensionMismatch(embeddingDim, |query|))
      ensures ntotal > 0 && queryDtype == Float32 && |query| == embeddingDim && topK <= 0 ==>
                r == Err(NonPositiveTopK(topK))
      ensures ntotal > 0 && queryDtype == Float32 && |query| == embeddingDim && topK > 0 ==>
                r == Ok(Hits(store.GetAll(), hits))
      ensures r.Ok? ==> |r.value| <= topK
    {
      if ntotal == 0 {
        return Err(EmptyIndex);
      }
      if queryDtype != Float32 {
        return Err(QueryNotFloat32);
      }
      if |query| != embeddingDim {
        return Err(DimensionMismatch(embeddingDim, |query|));
      }
      if topK <= 0 {
        return Err(NonPositiveTopK(topK));
      }
      ghost var entries := store.GetAll();
      var results: seq<Entry> := [];
      for j := 0 to |hits|
        invariant results == Hits(entries, hits[..j])
      {
        var i := hits[j];
        assert hits[..j + 1][..j] == hits[..j];
        if i != -1 {
          results := results + [Entry(store.texts[i], store.embeddings[i], store.metadata[i])];
        }
      }
      assert hits[..|hits|] == hits;
      r := Ok(results);
    }
  }
}

=== FILE: scraping.dfy ===
/** The filing scraper of scraping_agent.py: fetch a document, decide from the
    URL's suffix whether it is HTML or PDF, and turn it into a title/content
    record or a text blob; any failure gives no result for that one URL.
    Fetching, HTML parsing and the two PDF text extractors are foreign code and
    appear as the functions of a `Parsers` value. */
module Scraping {
  import opened Wrappers
  import opened Strings

  type Bytes = seq<bv8>

  /** A parsed `<title>` tag; `text` is its `.string`, which BeautifulSoup
      leaves as `None` when the tag does not hold exactly one string. */
  datatype TitleTag = TitleTag(text: Option<string>)

  /** What the extractor reads from a parsed page: `soup.title` and the `.text`
      of every `<p>` in document order. */
  datatype Soup = Soup(title: Option<TitleTag>, paragraphs: seq<string>)

  /** PyPDF2's reading of a document: it fails, or yields the
      `extract_text()` answer of every page (`None` for a page without text). */
  datatype PdfRead = Unreadable | Pages(pageTexts: seq<Option<string>>)

  /** The fallback extractor `partition_pdf`: not installed, failed, or the
      elements it found. */
  datatype Partition = NotInstalled | PartitionFailed | Elements(elements: seq<string>)

  /** The foreign code the agent calls. `fetch(url, userAgent)` is `None` when
      the request fails or the status is an error. */
  datatype Parsers = Parsers(
    fetch: (string, string) -> Option<Bytes>,
    parseHtml: Bytes -> Option<Soup>,
    readPdf: Bytes -> PdfRead,
    partition: Bytes -> Partition)

  /** `{"title": ..., "content": ...}` or `{"text_data": ...}` */
  datatype Filing = Html(title: string, content: string) | Text(textData: string)

  datatype Kind = HtmlDocument | PdfDocument | Unsupported

  /** `ScrapingAgent`; its one field is the User-Agent header it sends. */
  datatype Agent = Agent(userAgent: string)

  const DEFAULT_USER_AGENT: string :=
    "Mozilla/5.0 (Windows NT 10.0; Win64; x64) AppleWebKit/537.36 (KHTML, like Gecko) Chrome/123.0.0.0 Safari/537.36"
  /** `ScrapingAgent()`: the agent built with the default User-Agent. */
  const DEFAULT_AGENT: Agent := Agent(DEFAULT_USER_AGENT)
  const UNTITLED: string := "Untitled Document"
  const ERROR_TITLE: string := "Error"
  /** `str(e)` for the AttributeError of calling `.strip()` on `None`. */
  const NONE_STRIP_MESSAGE: string := "'NoneType' object has no attribute 'strip'"

  /** The branch `scrape_filing` takes, decided on the lower-cased URL. */
  function Classify(url: string): (k: Kind)
    ensures k == HtmlDocument <==> EndsWith(Lower(url), ".html") || EndsWith(Lower(url), ".htm")
    ensures k == PdfDocument <==> EndsWith(Lower(url), ".pdf")
  {
    var u := Lower(url);
    SuffixesExclusive(u);
    if EndsWith(u, ".html") || EndsWith(u, ".htm") then
      HtmlDocument
    else if EndsWith(u, ".pdf") then PdfDocument
    else
      Unsupported
  }

  /** No string ends both in an HTML suffix and in ".pdf". */
  lemma SuffixesExclusive(u: string)
    ensures !(EndsWith(u, ".pdf") && (EndsWith(u, ".html") || EndsWith(u, ".htm")))
  {
    assert EndsWith(u, ".html") ==> u[|u| - 1] == ".html"[4];
    assert EndsWith(u, ".htm") ==> u[|u| - 1] == ".htm"[3];
    assert EndsWith(u, ".pdf") ==> u[|u| - 1] == ".pdf"[3];
  }

  /** The suffix test ignores case: a URL and its lower-cased form go the same way. */
  lemma ClassifyIgnoresCase(url: string)
    ensures Classify(Lower(url)) == Classify(url)
  {
    LowerIdempotent(url);
  }

  /** `_extract_data_from_html`: the stripped title, or the default title when
      the page has none, and the stripped paragraphs joined by newlines; a
      title tag without a single string makes `.strip()` raise, and the handler
      returns the error record instead. */
  function ExtractDataFromHtml(soup: Soup): (r: Filing)
    ensures r.Html?
    ensures soup.title.None? ==> r == Html(UNTITLED, Join("\n", StripAll(soup.paragraphs)))
    ensures soup.title.Some? && soup.title.value.text.None? ==> r == Html(ERROR_TITLE, NONE_STRIP_MESSAGE)
    ensures soup.title.Some? && soup.title.value.text.Some? ==>
              && r.content == Join("\n", StripAll(soup.paragraphs))
              && r.title == Strip(soup.title.value.text.value)
              && Strip(r.title) == r.title
  {
    match soup.title
    case None => Html(UNTITLED, Join("\n", StripAll(soup.paragraphs)))
    case Some(TitleTag(None)) => Html(ERROR_TITLE, NONE_STRIP_MESSAGE)
    case Some(TitleTag(Some(t))) =>
      StripIdempotent(t);
      Html(Strip(t), Join("\n", StripAll(soup.paragraphs)))
  }

  /** `page.extract_text() or ""` */
  function PageString(page: Option<string>): string {
    match page
    case None => ""
    case Some(t) => t
  }

  /** No page gives any text. */
  predicate Silent(pages: seq<Option<string>>) {
    forall i :: 0 <= i < |pages| ==> PageString(pages[i]) == []
  }

  /** `"".join(page.extract_text() or "" for page in reader.pages)`: the
      text is empty exactly when no page gives any, and a single page gives
      its own text. */
  function PageText(pages: seq<Option<string>>): (text: string)
    ensures text == [] <==> Silent(pages)
    ensures |pages| == 1 ==> text == PageString(pages[0])
    ensures forall i :: 0 <= i < |pages| ==> |PageString(pages[i])| <= |text|
  {
    if pages == [] then ""
    else
      assert forall i :: 1 <= i < |pages| ==> pages[1..][i - 1] == pages[i];
      PageString(pages[0]) + PageText(pages[1..])
  }

  /** The pages are joined in order: the text of a concatenation is the
      concatenation of the texts. */
  lemma {:induction false} PageTextAppend(a: seq<Option<string>>, b: seq<Option<string>>)
    ensures PageText(a + b) == PageText(a) + PageText(b)
  {
    if a == [] {
      assert a + b == b;
    } else {
      var c := a + b;
      assert c[0] == a[0] && c[1..] == a[1..] + b;
      calc {
        PageText(c);
        PageString(a[0]) + PageText(a[1..] + b);
        { PageTextAppend(a[1..], b); }
        PageString(a[0]) + (PageText(a[1..]) + PageText(b));
      }
    }
  }

  /** `_extract_text_from_pdf`: PyPDF2's text, stripped, when it is not blank;
      otherwise the fallback extractor's elements joined by blank lines and
      stripped; nothing when the reader fails or the fallback is missing or
      fails. */
  function ExtractTextFromPdf(read: PdfRead, fallback: Partition): (r: Option<string>)
    ensures r.Some? ==> Strip(r.value) == r.value
    ensures read.Unreadable? ==> r == None
    ensures read.Pages? && !IsBlank(PageText(read.pageTexts)) ==> r == Some(Strip(PageText(read.pageTexts)))
    ensures read.Pages? && IsBlank(PageText(read.pageTexts)) ==>
              r == (if fallback.Elements? then Some(Strip(Join("\n\n", fallback.elements))) else None)
  {
    match read
    case Unreadable => None
    case Pages(pages) =>
      var text := PageText(pages);
      if Strip(text) != "" then
        StripIdempotent(text);
        Some(Strip(text))
      else
        match fallback
        case Elements(elements) =>
          StripIdempotent(Join("\n\n", elements));
          Some(Strip(Join("\n\n", elements)))
        case _ => None
  }

  /** `_extract_data_from_text` */
  function ExtractDataFromText(text: string): (r: Filing)
    ensures r == Text(Strip(text))
    ensures r.textData == [] <==> IsBlank(text)
    ensures NoEdgeSpace(r.textData)
    ensures Trimmed(text, r.textData)
    ensures Strip(r.textData) == r.textData
    ensures Strip(text) == text ==> r.textData == text
  {
    StripIdempotent(text);
    Text(Strip(text))
  }

  /** `scrape_filing`: the document is fetched first; a failed fetch, an
      unsupported suffix, a failed parse or a failed extraction gives `None`. */
  function ScrapeFiling(agent: Agent, parsers: Parsers, url: string): (r: Option<Filing>)
    ensures parsers.fetch(url, agent.userAgent).None? ==> r == None
    ensures Classify(url) == Unsupported ==> r == None
    ensures r.Some? && r.value.Html? ==> Classify(url) == HtmlDocument
    ensures r.Some? && r.value.Text? ==> Classify(url) == PdfDocument && Strip(r.value.textData) == r.value.textData
    ensures Classify(url) == HtmlDocument && parsers.fetch(url, agent.userAgent).Some? ==>
              r == (match parsers.parseHtml(parsers.fetch(url, agent.userAgent).value)
                    case None => None
                    case Some(soup) => Some(ExtractDataFromHtml(soup)))
    ensures Classify(url) == PdfDocument && parsers.fetch(url, agent.userAgent).Some? ==>
              var content := parsers.fetch(url, agent.userAgent).value;
              var text := ExtractTextFromPdf(parsers.readPdf(content), parsers.partition(content));
              r == (if text.None? then None else Some(Text(text.value)))
  {
    match parsers.fetch(url, agent.userAgent)
    case None => None
    case Some(content) =>
      match Classify(url)
      case HtmlDocument =>
        (match parsers.parseHtml(content)
         case None => None
         case Some(soup) => Some(ExtractDataFromHtml(soup)))
      case PdfDocument =>
        (match ExtractTextFromPdf(parsers.readPdf(content), parsers.partition(content))
         case None => None
         case Some(text) => Some(ExtractDataFromText(text)))
      case Unsupported => None
  }

  /** `scrape_filings`: one result per URL, in order, each the result of
      scraping that URL alone. */
  function ScrapeFilings(agent: Agent, parsers: Parsers, urls: seq<string>): (r: seq<Option<Filing>>)
    ensures |r| == |urls|
    ensures forall i :: 0 <= i < |urls| ==> r[i] == ScrapeFiling(agent, parsers, urls[i])
  {
    if urls == [] then []
    else [ScrapeFiling(agent, parsers, urls[0])] + ScrapeFilings(agent, parsers, urls[1..])
  }

  /** A batch is the concatenation of its parts: what one URL yields, failure
      included, never changes the results of the others. */
  lemma ScrapeFilingsAppend(agent: Agent, parsers: Parsers, a: seq<string>, b: seq<string>)
    ensures ScrapeFilings(agent, parsers, a + b)
            == ScrapeFilings(agent, parsers, a) + ScrapeFilings(agent, parsers, b)
  {
    var whole := ScrapeFilings(agent, parsers, a + b);
    var parts := ScrapeFilings(agent, parsers, a) + ScrapeFilings(agent, parsers, b);
    forall i | 0 <= i < |whole| ensures whole[i] == parts[i] {
      if i >= |a| {
        assert (a + b)[i] == b[i - |a|];
      }
    }
  }
}

=== FILE: strings.dfy ===
/** The handful of Python `str` operations the agents rely on: `strip()`,
    `lower()`, `endswith()`, the `in` substring test and `sep.join(...)`. */
module Strings {

  /** The characters for which Python's `str.isspace()` holds; these are the
      characters `str.strip()` removes when called without arguments. */
  predicate IsSpace(c: char) {
    ('\t' <= c <= '\r')
    || ('\U{1C}' <= c <= '\U{1F}')
    || c == ' ' || c == '\U{85}' || c == '\U{A0}' || c == '\U{1680}'
    || ('\U{2000}' <= c <= '\U{200A}')
    || c == '\U{2028}' || c == '\U{2029}' || c == '\U{202F}' || c == '\U{205F}'
    || c == '\U{3000}'
  }

  /** `not s.strip()`: the string holds only whitespace (or nothing). */
  predicate IsBlank(s: string) {
    forall i :: 0 <= i < |s| ==> IsSpace(s[i])
  }

  /** Number of whitespace characters at the front of `s`. */
  function LeadingSpace(s: string): (n: nat)
    ensures n <= |s|
    ensures forall i :: 0 <= i < n ==> IsSpace(s[i])
    ensures n < |s| ==> !IsSpace(s[n])
  {
    if s == [] || !IsSpace(s[0]) then 0 else 1 + LeadingSpace(s[1..])
  }

  /** Number of whitespace characters at the back of `s`. */
  function TrailingSpace(s: string): (n: nat)
    ensures n <= |s|
    ensures forall i :: |s| - n <= i < |s| ==> IsSpace(s[i])
    ensures n < |s| ==> !IsSpace(s[|s| - 1 - n])
  {
    if s == [] || !IsSpace(s[|s| - 1]) then 0 else 1 + TrailingSpace(s[..|s| - 1])
  }

  /** `r` neither starts nor ends with whitespace. */
  predicate NoEdgeSpace(r: string) {
    r != [] ==> !IsSpace(r[0]) && !IsSpace(r[|r| - 1])
  }

  /** `r` is an infix of `s` with only whitespace around it. */
  predicate Trimmed(s: string, r: string) {
    exists a :: 0 <= a <= |s| - |r| && r == s[a..a + |r|]
                && IsBlank(s[..a]) && IsBlank(s[a + |r|..])
  }

  /** Python's `s.strip()`: the longest infix of `s` that neither starts nor
      ends with whitespace, once the whitespace around it is removed. */
  function Strip(s: string): (r: string)
    ensures IsBlank(s) <==> r == []
    ensures NoEdgeSpace(r)
    ensures Trimmed(s, r)
  {
    var a := LeadingSpace(s);
    if a == |s| then
      assert IsBlank(s[..a]) && IsBlank(s[a..]);
      []
    else
      var b := |s| - TrailingSpace(s);
      assert a < b;
      var r := s[a..b];
      assert r == s[a..a + |r|] && IsBlank(s[..a]) && IsBlank(s[a + |r|..]);
      r
  }

  /** Stripping twice is stripping once, so a stripped string is a fixed point. */
  lemma StripIdempotent(s: string)
    ensures Strip(Strip(s)) == Strip(s)
  {
    var r := Strip(s);
    if r != [] {
      assert LeadingSpace(r) == 0;
      assert TrailingSpace(r) == 0;
      assert r[0..|r|] == r;
    }
  }

  /** Python's `str.lower()` restricted to ASCII letters. */
  function LowerChar(c: char): (d: char)
  {
    if 'A' <= c <= 'Z' then (c as int + 32) as char else c
  }

  /** `s.lower()`, character by character (ASCII letters only). */
  function Lower(s: string): (r: string)
    ensures |r| == |s|
    ensures forall i :: 0 <= i < |s| ==> r[i] == LowerChar(s[i])
    ensures forall i :: 0 <= i < |r| ==> !('A' <= r[i] <= 'Z')
  {
    if s == [] then [] else [LowerChar(s[0])] + Lower(s[1..])
  }

  /** Lower-casing is idempotent. */
  lemma LowerIdempotent(s: string)
    ensures Lower(Lower(s)) == Lower(s)
  {
    var r := Lower(s);
    assert forall i :: 0 <= i < |r| ==> LowerChar(r[i]) == r[i];
  }

  /** `s.endswith(suffix)` */
  predicate EndsWith(s: string, suffix: string) {
    |suffix| <= |s| && s[|s| - |suffix|..] == suffix
  }

  /** `s.startswith(prefix)` */
  predicate StartsWith(s: string, prefix: string) {
    |prefix| <= |s| && s[..|prefix|] == prefix
  }

  /** Python's `sub in s`, scanning `s` from the left. */
  predicate Contains(s: string, sub: string)
    decreases |s|
  {
    StartsWith(s, sub) || (s != [] && Contains(s[1..], sub))
  }

  /** `sub` occurs in `s` starting at index `i`. */
  predicate OccursAt(s: string, sub: string, i: int) {
    0 <= i <= |s| - |sub| && s[i..i + |sub|] == sub
  }

  /** `sub in s` holds exactly when `sub` occurs at some position of `s`. */
  lemma {:induction false} ContainsAt(s: string, sub: string)
    ensures Contains(s, sub) <==> exists i :: OccursAt(s, sub, i)
    decreases |s|
  {
    if StartsWith(s, sub) {
      assert OccursAt(s, sub, 0);
    } else if s == [] {
    } else {
      ContainsAt(s[1..], sub);
      var t := s[1..];
      if Contains(t, sub) {
        var j :| OccursAt(t, sub, j);
        assert s[j + 1..j + 1 + |sub|] == t[j..j + |sub|];
        assert OccursAt(s, sub, j + 1);
      }
      if i :| OccursAt(s, sub, i) {
        assert i != 0;
        assert t[i - 1..i - 1 + |sub|] == s[i..i + |sub|];
        assert OccursAt(t, sub, i - 1);
      }
    }
  }

  /** Python's `sep.join(parts)`. */
  function Join(sep: string, parts: seq<string>): (r: string)
    decreases |parts|
  {
    if |parts| == 0 then ""
    else if |parts| == 1 then parts[0]
    else parts[0] + sep + Join(sep, parts[1..])
  }

  /** Joining one more part appends the separator and that part, so parts
      appear in the joined string in their original order. */
  lemma {:induction false} JoinAppend(sep: string, parts: seq<string>, p: string)
    requires parts != []
    ensures Join(sep, parts + [p]) == Join(sep, parts) + sep + p
    decreases |parts|
  {
    if |parts| == 1 {
      assert parts + [p] == [parts[0], p];
      assert [parts[0], p][1..] == [p];
    } else {
      assert (parts + [p])[1..] == parts[1..] + [p];
      JoinAppend(sep, parts[1..], p);
    }
  }

  /** `[p.strip() for p in parts]` */
  function StripAll(parts: seq<string>): (r: seq<string>)
    ensures |r| == |parts|
    ensures forall i :: 0 <= i < |parts| ==> r[i] == Strip(parts[i])
  {
    if parts == [] then [] else [Strip(parts[0])] + StripAll(parts[1..])
  }
}

=== FILE: wrappers.dfy ===
/** Option and Result, the two shapes every wrapper of the assistant uses for
    "no value" and "an exception was raised". */
module Wrappers {

  datatype Option<+T> = None | Some(value: T)

  datatype Result<+T, +E> = Ok(value: T) | Err(error: E)
}
